=== FILE: README.md ===
# TGPy message protocol, modelled in Dafny

TGPy runs Python code typed into a Telegram chat and edits the message in
place to show the result. This project models the protocol layer around that,
as pure functions over immutable data:

- **Renderer** (`MessageDesign`, `design.dfy`): how `edit_message` lays out
  code, a `TGPy>` or `TGPy running>` title, the result, the output and the
  traceback; which PRE/BOLD/CODE entities it attaches, at which UTF-16
  offsets; how it cuts a text longer than 4096 characters. It also covers how
  `get_title_entity` and `get_united_code_entity` find the title link and the
  (possibly split) `python` code block in a received message.
- **UTF-16 and `str` helpers** (`Text`, `text.dfy`): `Utf16CodepointsWrapper`
  length and slicing, including the quirk that a bound of 0 reads as "none".
  Python's `strip()` and `find()` are modelled here too.
- **Parser** (`ParseMessage`, `parse.dfy`): `parse_tgpy_message` decides
  whether a message is a managed invocation and reads its code and previous
  result back. The round trip is stated through the renderer.
- **Reaction-replay guard** (`ReactionsFix`, `reactions.dfy`): the content
  fingerprint, the in-memory tier over the persisted tier, and the
  `show_warning` / `ignore` / `evaluate` verdict.
- **Dispatch** (`Handlers`, `handlers.dfy`): `handle_message` and the new and
  edited message handlers. Hooks, `parse_code` and the hash function are
  parameters. An evaluation is reported as an action, not performed.
- **prevent_eval** (`PreventEval`, `prevent_eval.dfy`): the cancel, stop and
  comment classification of the built-in hook; the entity shift of
  `handle_comment`; the bookkeeping of `cancel_message`.

A Python `str` is a Dafny `string` (code points). Telegram entity offsets and
lengths count UTF-16 code units (`Text.Units`). The model keeps the source's
mix of the two where the source mixes them:

- the 4096 check and the `[:4095]` cut count code points;
- `find('>')` returns a code-point index, which is then used as a UTF-16 slice
  bound.

For this reason the round-trip lemmas are stated for BMP code: text in which
every character is one UTF-16 unit.

`edit_message` records the edited message's fingerprint persistently
(`update_hash(res, in_memory=False)`, tgpy/_core/message_design.py:161). The
model follows the code here, including for the "Edit message again to
evaluate" prompt.

## Model

| member | source | states |
|---|---|---|
| Text.Utf16Len | tgpy/_core/message_design.py:18-19 | The UTF-16 length is never below the number of characters. It equals it on BMP text. |
| Text.Utf16LenCount | tgpy/_core/message_design.py:18-19 | The UTF-16 length is the number of characters plus one for each character outside the BMP. |
| Text.UnitsAppend | tgpy/_core/message_design.py:63 | The UTF-16 units of a concatenation are the units of the parts, in order. |
| Text.DecodeUnits | tgpy/_core/message_design.py:22-34 | Decoding the UTF-16 units of a string gives the string back. |
| Text.Utf16Slice | tgpy/_core/message_design.py:21-34 | Slicing BMP text never raises a decode error. |
| Text.ZeroAsNone | tgpy/_core/message_design.py:25-26 | A slice bound of 0, or no bound, becomes "no bound"; any other bound is kept. |
| Text.SliceStopZero | tgpy/_core/message_design.py:26 | A slice stop of 0 gives the same result as no stop, i.e. "to the end". |
| Text.BmpSlice | tgpy/_core/message_design.py:21-34 | On BMP text a UTF-16 slice with a non-zero stop is the code-point slice. |
| Text.SliceAfterPrefix | tgpy/_core/message_design.py:21-34 | Slicing `p + q` from `len(p)` (non-zero) to the end gives `q` back, for any characters. |
| Text.SliceBeforeSuffix | tgpy/_core/message_design.py:21-34 | Slicing `p + q` from 0 to `len(p)` (non-zero) gives `p` back, for any characters. |
| Text.Strip | tgpy/api/parse_tgpy_message.py:29-30 | The result of `strip()` neither starts nor ends with whitespace. |
| Text.StripInfix | tgpy/api/parse_tgpy_message.py:29-30 | `strip()` keeps an infix with only whitespace around it. |
| Text.StripBlank | tgpy/std/prevent_eval.py:108 | `strip()` gives the empty string exactly when every character is whitespace. |
| Text.StripOfStripped | tgpy/api/parse_tgpy_message.py:29-30 | A string with no whitespace at either end is its own `strip()`. |
| Text.StripIdempotent | tgpy/api/parse_tgpy_message.py:29-30 | Stripping twice is stripping once. |
| Text.StripSpacePrefix | tgpy/api/parse_tgpy_message.py:30 | Whitespace in front of a string does not change its `strip()`. |
| Text.FindAt | tgpy/api/parse_tgpy_message.py:30 | A scan from a given index returns -1 or an index at or after it that holds the character. |
| Text.FindFrom | tgpy/api/parse_tgpy_message.py:30 | `find` returns -1 or an index at or after the clamped start that holds the character. |
| Text.FindAtFirst | tgpy/api/parse_tgpy_message.py:30 | No occurrence lies between the start and the returned index. |
| Text.FindAtIs | tgpy/api/parse_tgpy_message.py:30 | Conversely, the first occurrence at or after the start (or -1) is what `find` returns. |
| MessageDesign.Promote | tgpy/_core/message_design.py:45-50 | A non-empty result changes nothing. An empty result takes a non-empty output, which leaves its slot while the traceback stays. Failing that it takes the traceback, which leaves its slot. Nothing is lost or duplicated. |
| MessageDesign.TitleLine | tgpy/_core/message_design.py:52 | The title ends in `>` and holds no earlier `>`. |
| MessageDesign.Arrange | tgpy/_core/message_design.py:52-69 | Every rendered part is stripped, and the title is the one for the running flag. |
| MessageDesign.StatusLen | tgpy/_core/message_design.py:101-109 | The title-and-result line is one unit longer than title plus result. |
| MessageDesign.LayoutUnits | tgpy/_core/message_design.py:133-137 | The text's units are code, blank line, title, space, result, then each non-empty later part after a blank line. |
| MessageDesign.LayoutCovers | tgpy/_core/message_design.py:75-126 | Each entity covers exactly the UTF-16 units of its part. Result, output and traceback entities are present when their parts are non-empty. |
| MessageDesign.LayoutHead | tgpy/_core/message_design.py:75-80 | The first entity is the `python` PRE block at offset 0 over the code; no other entity is a PRE block. |
| MessageDesign.LayoutMembers | tgpy/_core/message_design.py:102-126 | Every entity is one of the named ones, each present only if its part is non-empty. |
| MessageDesign.LayoutWellFormed | tgpy/_core/message_design.py:72-137 | Before truncation, offsets strictly increase, entities do not overlap, and each ends within the text. |
| MessageDesign.ChainedOrdered | tgpy/_core/message_design.py:72-126 | Neighbour order with non-negative lengths gives the order of every pair. |
| MessageDesign.Clip | tgpy/_core/message_design.py:147-152 | Clipped entities start before the new length and end by it; none is added. |
| MessageDesign.ClipMembers | tgpy/_core/message_design.py:147-152 | Clipping keeps exactly the entities starting before the new length, each cut to end by it. |
| MessageDesign.ClipWellFormed | tgpy/_core/message_design.py:147-152 | Clipping an ordered list keeps it ordered and inside the new length. |
| MessageDesign.ClipInside | tgpy/_core/message_design.py:147-152 | Entities that already end inside the new length are left unchanged. |
| MessageDesign.Truncate | tgpy/_core/message_design.py:139-152 | Text of at most 4096 characters is left alone. Longer text becomes its first 4095 characters and `…`, and the entities are clipped to 4096. |
| MessageDesign.Render | tgpy/_core/message_design.py:45-152 | The sent text has at most 4096 characters. Its entities are well formed over its UTF-16 length, and the first is the PRE block at 0. |
| MessageDesign.TruncateCut | tgpy/_core/message_design.py:139-152 | Cutting a long text keeps well-formed entities well formed and keeps the leading PRE block. |
| MessageDesign.GetTitleEntity | tgpy/_core/message_design.py:165-171 | The result is None exactly when no entity is a link to either title URL. Otherwise it is the first such link. |
| MessageDesign.GetUnitedCodeEntity | tgpy/_core/message_design.py:174-186 | The result is None exactly when there is no `python` PRE block. Otherwise it is the first one, with only its length changed. |
| MessageDesign.UniteKeeps | tgpy/_core/message_design.py:180-184 | Once a block is held, merging changes only its length. |
| MessageDesign.UniteOnlyBlocks | tgpy/_core/message_design.py:177-179 | Entities other than `python` PRE blocks play no part in the merge. |
| MessageDesign.MergeAdjacent | tgpy/_core/message_design.py:182-184 | A block starting one unit after the held block's end is merged, with the separating unit. |
| MessageDesign.SkipDetached | tgpy/_core/message_design.py:182-184 | A block starting anywhere else leaves the held block unchanged. |
| MessageDesign.UniteSnoc | tgpy/_core/message_design.py:177-184 | Merging a list with one more entity at the end is one more merge step on the result so far. |
| MessageDesign.UnitedSnoc | tgpy/_core/message_design.py:174-186 | `get_united_code_entity` starts from None and takes one step per entity, in order, so the merge rule applies to any number of split blocks. |
| MessageDesign.UniteSingle | tgpy/_core/message_design.py:174-186 | With a single `python` block, that block is returned unchanged. |
| ParseMessage.ReadBack | tgpy/api/parse_tgpy_message.py:28-31 | A successful read is managed and carries both a code and a result, each stripped. On BMP text it cannot fail. |
| ParseMessage.ParseTgpyMessage | tgpy/api/parse_tgpy_message.py:18-31 | Not managed exactly when no merged `python` block starts the message. A managed result carries stripped code and result. BMP text never raises. |
| ParseMessage.FindTitleMark | tgpy/api/parse_tgpy_message.py:30 | On a rendered text, the first `>` after the code is the one closing the title. |
| ParseMessage.SetFirstBlockAt | tgpy/_core/message_design.py:180-183 | Writing the merged span back touches only the first `python` block; the entities before and after it stay in place. |
| ParseMessage.Merged | tgpy/_core/message_design.py:174-186 | After parsing, the message keeps its text, caption, key and number of entities, and is unchanged when it has no `python` block. |
| ParseMessage.MergedBlock | tgpy/_core/message_design.py:180-184 | After parsing, the first `python` block has the merged length and every other entity is as sent. |
| ParseMessage.MergedLeading | tgpy/_core/message_design.py:180-184 | A message led by a `python` block that nothing merges into, such as a rendered one, is left as it was. |
| ParseMessage.LayoutCodeBlock | tgpy/api/parse_tgpy_message.py:19 | The merged block of a rendered message is its code block. |
| ParseMessage.ParseLayout | tgpy/api/parse_tgpy_message.py:18-31 | Parsing an untruncated layout with non-empty BMP code gives back the code and everything after the title, stripped. |
| ParseMessage.RenderParseRoundTrip | tgpy/api/parse_tgpy_message.py:18-31 | Parsing a rendered message gives managed, the stripped code, and the text after the title's `>`, stripped. |
| ParseMessage.RenderParseResult | tgpy/api/parse_tgpy_message.py:30 | For non-empty BMP code and an untruncated message with only a result, it reads back as the stripped (promoted) result. |
| ParseMessage.ParseEmptyCode | tgpy/api/parse_tgpy_message.py:29 | A code block of length 0 reads as the whole text, stripped, through the stop-0 quirk. |
| ParseMessage.LayoutNotBlank | tgpy/_core/message_design.py:133 | A rendered text is never blank: it holds the title. |
| ParseMessage.EmptyCodeReadsWholeText | tgpy/api/parse_tgpy_message.py:29 | For an untruncated message, rendering empty code and parsing it back gives the whole rendered text, stripped, as code, which is not empty. |
| ReactionsFix.RecordEqual | tgpy/reactions_fix.py:25-34 | Two entities give the same JSON record exactly when they agree on type name, offset, length, url and language. An empty url or language is left out, so it equals only another empty one. |
| ReactionsFix.ContentEqual | tgpy/reactions_fix.py:22-37 | Two messages have the same fingerprint data exactly when texts agree and entities agree pairwise on type, offset, length, url and language. |
| ReactionsFix.CaptionNotHashed | tgpy/reactions_fix.py:36 | Caption, chat and id do not enter the fingerprint data. |
| ReactionsFix.Saved | tgpy/reactions_fix.py:48-51 | A fingerprint is found exactly when one of the two tiers holds one. |
| ReactionsFix.CheckHash | tgpy/reactions_fix.py:46-56 | `show_warning` exactly when neither tier holds the key. Otherwise `ignore` exactly when the in-memory fingerprint, or failing it the persisted one, matches. |
| ReactionsFix.UpdateHash | tgpy/reactions_fix.py:59-69 | None changes nothing. In-memory writes the message's fingerprint to that tier only. Persistent drops the in-memory entry and writes the fingerprint to the persisted tier. No other key's entry changes in either tier. |
| ReactionsFix.UpdateThenIgnore | tgpy/reactions_fix.py:46-69 | After recording a message in either mode, checking the same content says ignore. |
| ReactionsFix.EditThenEvaluate | tgpy/reactions_fix.py:54-56 | After recording, content with a different fingerprint says evaluate. |
| ReactionsFix.ReactionIgnored | tgpy/reactions_fix.py:22-56 | An event with the recorded text and entities is ignored, whatever else changed. |
| ReactionsFix.UpdateIsolated | tgpy/reactions_fix.py:59-69 | Recording one message leaves every other message's verdict unchanged. |
| ReactionsFix.InMemoryShadows | tgpy/reactions_fix.py:48-51 | An in-memory record leaves the persisted tier and the verdict after a restart unchanged. |
| ReactionsFix.DurableSurvivesRestart | tgpy/reactions_fix.py:64-69 | A persistent record still says ignore after the in-memory tier is lost. |
| ReactionsFix.DurableClearsShadow | tgpy/reactions_fix.py:65-69 | A persistent record replaces a stale in-memory one. |
| Handlers.Finish | tgpy/_handlers/__init__.py:63-72 | A warning-only run warns and a full run evaluates. The warned message keeps its key and is recorded persistently, so its own edit event is ignored, also after a restart. No other key's entry changes in either tier. The warned message is the message re-rendered with the code and "Edit message again to evaluate". An evaluation gets the code and the message, and `handle_message` records nothing before handing it off. |
| Handlers.HandleMessage | tgpy/_handlers/__init__.py:31-78 | A message without text and caption does nothing. An error notice goes to the original chat and records nothing. A warning-only run never evaluates, and a full run never warns. `handle_message` records nothing before handing off an evaluation, and a warned message is recorded so that its own event is ignored. |
| Handlers.ErrorsNotified | tgpy/_handlers/__init__.py:37-78 | For a message with text or caption, a parse decode error, a raising hook, or a decode error parsing the hooks' version of a managed message sends the error notice to the original chat and records nothing. The notice is sent for nothing else. |
| Handlers.PlainCodeFinishes | tgpy/_handlers/__init__.py:52-72 | The hooks get the message as parsing left it. A plain message the hooks keep and `parse_code` accepts is warned about or evaluated with the kept message's text, or its caption. |
| Handlers.ManagedFinishes | tgpy/_handlers/__init__.py:39-50 | A managed message the hooks keep managed is warned about or evaluated with the code read back from the hooks' version, and with that version as its own parse left it. |
| Handlers.OnNewMessage | tgpy/_handlers/__init__.py:81-84 | A new message is handled as `handle_message` without the warning-only flag. It is never answered with the warning, and it records only when nothing else happens. |
| Handlers.NewCodeEvaluated | tgpy/_handlers/__init__.py:81-84 | A new plain message that is code, passed on by the hooks as they got it, is evaluated with its text, and nothing is recorded. |
| Handlers.OnMessageEdited | tgpy/_handlers/__init__.py:87-111 | When the broadcast test holds, and for a running message, nothing happens. Otherwise `ignore` does nothing, `show_warning` runs `handle_message` warning-only and `evaluate` runs it in full. |
| Handlers.UnrecordedEditWarns | tgpy/_handlers/__init__.py:99-105 | An edit of a code message that was never recorded gets the warning, not an evaluation. |
| Handlers.IgnoredEditDoesNothing | tgpy/_handlers/__init__.py:101-102 | An `ignore` verdict means nothing happens and nothing is recorded. |
| Handlers.WarningThenReactionIgnored | tgpy/_handlers/__init__.py:103-105 | After a warning, a reaction on the warned message is ignored. |
| Handlers.HookRejectedRecordsNothing | tgpy/_handlers/__init__.py:54-56 | A plain message the hooks drop records nothing, because the falsy hook result is what gets recorded. |
| Handlers.NotCodeRecordedInMemory | tgpy/_handlers/__init__.py:58-61 | A plain message that is not code is recorded in memory only, as the hooks passed it on. An event with that version's text and entities is then ignored. |
| Handlers.MergedRecordMissesReaction | tgpy/_handlers/__init__.py:37-61 | When parsing merged split `python` blocks and the hooks pass that message on, the record holds the merged entities. A later event carrying the entities as sent, such as a reaction, then says evaluate. |
| Handlers.BrokenByHookDropped | tgpy/_handlers/__init__.py:42-48 | A managed message a hook drops or breaks is neither evaluated nor recorded. |
| Handlers.ManagedEvaluatesParsedCode | tgpy/_handlers/__init__.py:46-50 | A managed message is evaluated with the code parsed from the hooks' version, and with that version as its parse left it. |
| Handlers.RenderedMessageEvaluatesItsCode | tgpy/_handlers/__init__.py:37-50 | Re-sending a rendered message unchanged evaluates its stripped code. |
| Handlers.EditedParsesBack | tgpy/_handlers/__init__.py:65-68 | For non-empty BMP code and an untruncated message, a message edited to code and a stripped result parses back to exactly those. |
| Handlers.WarningKeepsCode | tgpy/_handlers/__init__.py:65-68 | The warned message still parses to its code, with the warning as the result. |
| PreventEval.IsCancel | tgpy/std/prevent_eval.py:22 | `fullmatch` leaves nothing around the word: a cancel command is exactly six characters. |
| PreventEval.IsInterrupt | tgpy/std/prevent_eval.py:23 | An interrupt command is exactly four characters. |
| PreventEval.IsComment | tgpy/std/prevent_eval.py:108 | A comment starts with `//` and has at least one more character. |
| PreventEval.CancelNotInterrupt | tgpy/std/prevent_eval.py:22-23 | No text is both a cancel and an interrupt. |
| PreventEval.CommandExamples | tgpy/std/prevent_eval.py:22-23 | Examples: upper, lower and mixed case match, including Python's extra equivalents such as the long s. A trailing space, newline or `!` does not. |
| PreventEval.CommentNeedsContent | tgpy/std/prevent_eval.py:108 | `//` followed only by whitespace is not a comment; `//` followed by anything else is. |
| PreventEval.CommandsAreNotComments | tgpy/std/prevent_eval.py:114-117 | A cancel or interrupt command is never also a comment. |
| PreventEval.ExecHook | tgpy/std/prevent_eval.py:103-119 | Ignored keys are refused first. `cancel` is permanent and `stop` is not. Only text that is neither command nor comment passes. |
| PreventEval.IgnoredStaysIgnored | tgpy/std/prevent_eval.py:104-106 | A message on the ignored list stays refused whatever its text becomes. |
| PreventEval.DropTwo | tgpy/std/prevent_eval.py:100 | The new text is what follows the first two characters. |
| PreventEval.HandleComment | tgpy/std/prevent_eval.py:88-100 | The key is appended to the ignored list. The text loses its first two characters, and every entity is kept. |
| PreventEval.ShiftCovers | tgpy/std/prevent_eval.py:94-99 | A moved entity covers the same units of the shortened text that it covered after the `//`. |
| PreventEval.CommentKeepsFormatting | tgpy/std/prevent_eval.py:93-100 | Every entity reaching past the `//` covers the same characters after the edit. |
| PreventEval.CommentedStaysIgnored | tgpy/std/prevent_eval.py:89-91 | After `handle_comment` the hook refuses the message from then on. |
| PreventEval.CancelMessage | tgpy/std/prevent_eval.py:26-42 | It fails exactly when parsing raises, and a running task is cancelled whatever the parse gave. An unmanaged message returns False with no edit. Otherwise the text becomes the code, and a permanent cancel appends to the ignored list while `stop` records persistently. |
| PreventEval.PermanentCancelSticks | tgpy/std/prevent_eval.py:35-38 | After a permanent cancel the hook refuses the message from then on. |
| PreventEval.StopIgnoresOwnEdit | tgpy/std/prevent_eval.py:39-40 | After `stop`, the cancel's own edit event is ignored, while a real change is evaluated. |
| PreventEval.CancelRenderedLeavesCode | tgpy/std/prevent_eval.py:27-33 | Cancelling a freshly rendered message leaves exactly its stripped code. |

## Left out

- `send_error` and the actual `edit_text`/`send_message` calls are Telegram I/O. An edit is modelled as the rendered text and entities it sends.
- The markup handling of the transport is not modelled. A sent message keeps exactly the text and entities it was sent with.
- SHA-256, base64 and `json.dumps` are not modelled. The digest is a parameter `hash` over the structured fingerprint data, and no cryptographic property is claimed.
- The config store's key paths (`core.reactions_fix.messages.<chat>.<id>`, `prevent_eval.ignored_messages`) and its saving are not modelled. Each store is a map or sequence keyed by `(chat id, message id)`.
- `handle_cancel` is client I/O: the chat-history search, the forwarded and topic target selection, and deleting the command. Only `cancel_message`, which it calls, is modelled.
- `exec_hooks.apply`, `parse_code` and `eval_message` are parameters or actions.
- `running_messages` is a set of keys, and cancelling a task is a flag in the outcome.
- Exceptions raised inside `parse_code`, `eval_message` or `edit_message` are not modelled. Only a raising hook and a parse decode error lead to the error notice.
- asyncio concurrency between handlers is out of scope. Each handler runs to completion on the store it is given.
- `outgoing_filter` and the handler registration are not modelled; the model handles only messages that passed the filter.
- `main.py`, `module_manager.py`, `run.py`, `context_aliases.py` and `_core/utils.py` are not part of this model.
- The broadcast-channel test of `on_message_edited_handler` depends on the client library's chat types. It is a boolean parameter.
- `get_united_code_entity` mutates the first `python` block in place. The model returns the merged span as a new value, and `Merged` gives the message as that parse leaves it. `handle_message` hands `Merged` of the original to the hooks, On the managed path, which parses again, it hands `Merged` of the hooks' version to the evaluation or warning. Repeated parses of one object are not modelled. Each parse merges again from the lengthened block, which can reach further when the entity list is out of order.
- Integer indexing of `Utf16CodepointsWrapper` (`w[i]`) and slice steps are not modelled. Neither is used by the core.
- Python `None` for text, caption, url and language is collapsed to the empty string. The uses of url, language and caption are truthiness tests. `message.text or message.caption` in `handle_message` gives `None` when the hooks return a message with neither. The model passes `""` to `parse_code` and to the evaluation instead.
- The ignored list is modelled as the value `config.get` returns, with the key appended to it. The source appends to the returned list in place and then saves. This relies on `config.get(KEY, [])` handing back the stored list object. `tgpy/api/config.py` is not part of this model.
- `cancel_message` edits a message's text. A media caption would be edited differently by the transport, which is not modelled.
- ParseMessage.RenderParseRoundTrip: stated only for non-empty BMP code and untruncated messages. For other messages, the code-point index from `find` and the UTF-16 slice bounds disagree, or the cut changes the text.
- ParseMessage.ParseLayout: same restriction as the round trip. The result part may hold any characters.
- Handlers.RenderedMessageEvaluatesItsCode: same restriction as the round trip.
- ParseMessage.RenderParseResult: same restriction as the round trip.
- Handlers.EditedParsesBack: same restriction as the round trip.
- ParseMessage.EmptyCodeReadsWholeText: stated only for untruncated messages. The source reads a cut message the same way: the cut code block keeps length 0, and the title's `>` lies inside the kept characters. That case is not proved.
- Handlers.WarningKeepsCode: same restriction as the round trip.
- PreventEval.CancelRenderedLeavesCode: same restriction as the round trip.
- PreventEval.ShiftCovers: stated only for entities that reach past the `//`. For an entity lying inside the `//`, the source's rule gives a length of 0 or less, and the model computes that negative length as written.
- PreventEval.CommentKeepsFormatting: same restriction as ShiftCovers.
- Text.StripInfix: states that the kept part is surrounded by whitespace. Maximality follows from `IsStripped`, which `Strip` ensures, and is not restated.

=== FILE: design.dfy ===
/** The renderer of `tgpy/_core/message_design.py`: how a message is laid out
    from code, result, output and traceback, which entities mark its parts,
    how it is cut at the transport's length cap, and how the title and the
    (possibly split) code block are found again in a message. */
module MessageDesign {
  import opened Wrappers
  import opened Text
  import opened Types

  const Title: string := "TGPy"
  const RunningTitle: string := "TGPy running"
  const OldTitleUrl: string := "https://github.com/tm-a-t/TGPy"
  const TitleUrl: string := "https://tgpy.tmat.me/"
  /** The transport's cap on message length. */
  const MaxLength: nat := 4096
  const Ellipsis: char := '\U{2026}'
  /** The blank line between two parts of a rendered message. */
  const Separator: string := "\n\n"

  /** What `edit_message` sends: the text and its entities. */
  datatype Rendered = Rendered(text: string, entities: seq<Entity>)

  function Min(a: int, b: int): int {
    if a <= b then a else b
  }

  // ---------------------------------------------------------------------------
  // Well-formed entity lists
  // ---------------------------------------------------------------------------

  /** Every entity lies inside a text of `n` units. */
  predicate InBounds(es: seq<Entity>, n: int) {
    forall i :: 0 <= i < |es| ==> 0 <= es[i].offset && 0 <= es[i].length && End(es[i]) <= n
  }

  /** Offsets strictly increase and no entity overlaps a later one. */
  predicate Ordered(es: seq<Entity>) {
    forall i, j :: 0 <= i < j < |es| ==> es[i].offset < es[j].offset && End(es[i]) <= es[j].offset
  }

  predicate WellFormed(es: seq<Entity>, n: int) {
    InBounds(es, n) && Ordered(es)
  }

  predicate NonNegative(es: seq<Entity>) {
    forall i :: 0 <= i < |es| ==> 0 <= es[i].offset && 0 <= es[i].length
  }

  /** Ordered, checked only on neighbours. */
  predicate Chained(es: seq<Entity>) {
    forall i :: 0 < i < |es| ==> es[i - 1].offset < es[i].offset && End(es[i - 1]) <= es[i].offset
  }

  /** The last entity of `es`, if any, starts before and ends by `x`. */
  predicate Before(es: seq<Entity>, x: int) {
    es == [] || (es[|es| - 1].offset < x && End(es[|es| - 1]) <= x)
  }

  lemma {:induction false} ChainedPair(es: seq<Entity>, i: nat, j: nat)
    requires Chained(es) && NonNegative(es)
    requires i < j < |es|
    ensures es[i].offset < es[j].offset && End(es[i]) <= es[j].offset
    decreases j - i
  {
    if j > i + 1 {
      ChainedPair(es, i, j - 1);
    }
  }

  /** Neighbour order with non-negative lengths gives the order of all pairs. */
  lemma ChainedOrdered(es: seq<Entity>)
    requires Chained(es) && NonNegative(es)
    ensures Ordered(es)
  {
    forall i, j | 0 <= i < j < |es|
      ensures es[i].offset < es[j].offset && End(es[i]) <= es[j].offset
    {
      ChainedPair(es, i, j);
    }
  }

  // ---------------------------------------------------------------------------
  // Layout (edit_message, before the Telegram call)
  // ---------------------------------------------------------------------------

  /** The result, output and traceback slots after promotion. */
  datatype Slots = Slots(result: string, output: string, traceback: string)

  /** An empty result takes the output, or failing that the traceback; the
      promoted value leaves its own slot. Emptiness is Python truthiness of
      the raw, unstripped strings. */
  function Promote(result: string, output: string, traceback: string): (s: Slots)
    ensures s.result + s.output + s.traceback == result + output + traceback
    ensures s.result == "" <==> result == "" && output == "" && traceback == ""
    ensures result != "" ==> s == Slots(result, output, traceback)
    ensures result == "" && output != "" ==> s == Slots(output, "", traceback)
    ensures result == "" && output == "" ==> s == Slots(traceback, "", "")
    ensures s.output == output || s.output == ""
    ensures s.traceback == traceback || s.traceback == ""
  {
    var (r, o) := if result == "" && output != "" then (output, "") else (result, output);
    var (r', t) := if r == "" && traceback != "" then (traceback, "") else (r, traceback);
    Slots(r', o, t)
  }

  /** The bold status marker, ending in `>`. */
  function TitleLine(isRunning: bool): (t: string)
    ensures |t| > 0 && t[|t| - 1] == '>'
    ensures forall k :: 0 <= k < |t| - 1 ==> t[k] != '>'
    ensures IsBmp(t)
  {
    (if isRunning then RunningTitle else Title) + ">"
  }

  /** The stripped parts of a rendered message. */
  datatype Layout = Layout(code: string, title: string, result: string, output: string, traceback: string)

  /** `edit_message`'s arguments in its own order, promoted and stripped. */
  function Arrange(code: string, result: string, traceback: string, output: string, isRunning: bool): (l: Layout)
    ensures l.title == TitleLine(isRunning)
    ensures IsStripped(l.code) && IsStripped(l.result) && IsStripped(l.output) && IsStripped(l.traceback)
  {
    var s := Promote(result, output, traceback);
    Layout(Strip(code), TitleLine(isRunning), Strip(s.result), Strip(s.output), Strip(s.traceback))
  }

  /** A later part: a blank line and the part, or nothing when it is empty. */
  function Tail(part: string): string {
    if part != "" then Separator + part else ""
  }

  /** The line under the code: the title, a space and the result. */
  function StatusLine(l: Layout): string {
    l.title + " " + l.result
  }

  function LayoutText(l: Layout): string {
    l.code + Separator + StatusLine(l) + Tail(l.output) + Tail(l.traceback)
  }

  /** The `python` block over the code. */
  function CodeEntity(l: Layout): Entity {
    Entity(Pre, 0, Utf16Len(l.code), "", "python")
  }

  /** The bold title, after the code and a blank line. */
  function TitleMark(l: Layout): Entity {
    Entity(Bold, Utf16Len(l.code) + 2, Utf16Len(l.title), "", "")
  }

  /** The result, after the title and a space. */
  function ResultEntity(l: Layout): Entity {
    Entity(Code, Utf16Len(l.code) + 2 + Utf16Len(l.title) + 1, Utf16Len(l.result), "", "")
  }

  /** Where the part after the status line starts. */
  function OutputAt(l: Layout): int {
    Utf16Len(l.code) + 2 + Utf16Len(StatusLine(l)) + 2
  }

  function OutputEntity(l: Layout): Entity {
    Entity(Code, OutputAt(l), Utf16Len(l.output), "", "")
  }

  function TracebackEntity(l: Layout): Entity {
    var at := if l.output != "" then OutputAt(l) + Utf16Len(l.output) + 2 else OutputAt(l);
    Entity(Code, at, Utf16Len(l.traceback), "", "")
  }

  /** The entities `edit_message` builds, in the order it appends them. */
  function LayoutEntities(l: Layout): seq<Entity> {
    [CodeEntity(l), TitleMark(l)]
    + (if Utf16Len(l.result) > 0 then [ResultEntity(l)] else [])
    + (if l.output != "" then [OutputEntity(l)] else [])
    + (if l.traceback != "" then [TracebackEntity(l)] else [])
  }

  /** `u[e.offset:e.offset+e.length]` is exactly `part`. */
  predicate Covers(u: seq<Unit>, e: Entity, part: seq<Unit>) {
    0 <= e.offset && e.length == |part| && End(e) <= |u| && u[e.offset..End(e)] == part
  }

  lemma Utf16LenAppend(a: string, b: string)
    ensures Utf16Len(a + b) == Utf16Len(a) + Utf16Len(b)
  {
    UnitsAppend(a, b);
  }

  lemma Utf16LenPositive(s: string)
    ensures s != "" <==> Utf16Len(s) > 0
  {
  }

  /** `x` sits right after `a` in `a + x + b`. */
  lemma PartAt<T>(a: seq<T>, x: seq<T>, b: seq<T>)
    ensures |a| + |x| <= |a + x + b| && (a + x + b)[|a|..|a| + |x|] == x
  {
  }

  lemma StatusUnits(l: Layout)
    ensures Units(StatusLine(l)) == Units(l.title) + [32] + Units(l.result)
  {
    UnitsAppend(l.title, " ");
    UnitsAppend(l.title + " ", l.result);
    assert Units(" ") == [32];
  }

  lemma StatusLen(l: Layout)
    ensures Utf16Len(StatusLine(l)) == Utf16Len(l.title) + 1 + Utf16Len(l.result)
  {
    Utf16LenAppend(l.title, " ");
    Utf16LenAppend(l.title + " ", l.result);
  }

  lemma TailUnits(part: string)
    ensures part != "" ==> Units(Tail(part)) == [10, 10] + Units(part)
    ensures part == "" ==> Units(Tail(part)) == []
  {
    UnitsAppend(Separator, part);
    assert Units(Separator) == [10, 10];
  }

  /** The units of the text are the units of its parts, in order. */
  lemma LayoutUnits(l: Layout)
    ensures Units(LayoutText(l)) ==
      Units(l.code) + [10, 10] + (Units(l.title) + [32] + Units(l.result)) + Units(Tail(l.output)) + Units(Tail(l.traceback))
  {
    var a := l.code;
    var b := Separator;
    var c := StatusLine(l);
    var f := Tail(l.output);
    var g := Tail(l.traceback);
    UnitsAppend(a, b);
    UnitsAppend(a + b, c);
    UnitsAppend(a + b + c, f);
    UnitsAppend(a + b + c + f, g);
    assert Units(Separator) == [10, 10];
    StatusUnits(l);
  }

  // Where each part sits in a sequence shaped like the layout's units:
  // code, blank line, title, space, result, output tail, traceback tail.

  lemma CodeIn(C: seq<Unit>, T: seq<Unit>, R: seq<Unit>, O: seq<Unit>, B: seq<Unit>)
    ensures var u := C + [10, 10] + (T + [32] + R) + O + B;
      |C| <= |u| && u[0..|C|] == C
  {
    var u := C + [10, 10] + (T + [32] + R) + O + B;
    assert u == [] + C + ([10, 10] + (T + [32] + R) + O + B);
    PartAt([], C, [10, 10] + (T + [32] + R) + O + B);
  }

  lemma TitleIn(C: seq<Unit>, T: seq<Unit>, R: seq<Unit>, O: seq<Unit>, B: seq<Unit>)
    ensures var u := C + [10, 10] + (T + [32] + R) + O + B;
      |C| + 2 + |T| <= |u| && u[|C| + 2..|C| + 2 + |T|] == T
  {
    var u := C + [10, 10] + (T + [32] + R) + O + B;
    assert u == (C + [10, 10]) + T + ([32] + R + O + B);
    PartAt(C + [10, 10], T, [32] + R + O + B);
  }

  lemma ResultIn(C: seq<Unit>, T: seq<Unit>, R: seq<Unit>, O: seq<Unit>, B: seq<Unit>)
    ensures var u := C + [10, 10] + (T + [32] + R) + O + B; var at := |C| + 2 + |T| + 1;
      at + |R| <= |u| && u[at..at + |R|] == R
  {
    var u := C + [10, 10] + (T + [32] + R) + O + B;
    assert u == (C + [10, 10] + T + [32]) + R + (O + B);
    PartAt(C + [10, 10] + T + [32], R, O + B);
  }

  lemma OutputIn(C: seq<Unit>, T: seq<Unit>, R: seq<Unit>, P: seq<Unit>, B: seq<Unit>)
    ensures var u := C + [10, 10] + (T + [32] + R) + ([10, 10] + P) + B;
      var at := |C| + 2 + (|T| + 1 + |R|) + 2;
      at + |P| <= |u| && u[at..at + |P|] == P
  {
    var u := C + [10, 10] + (T + [32] + R) + ([10, 10] + P) + B;
    assert u == (C + [10, 10] + (T + [32] + R) + [10, 10]) + P + B;
    PartAt(C + [10, 10] + (T + [32] + R) + [10, 10], P, B);
  }

  lemma TracebackIn(C: seq<Unit>, T: seq<Unit>, R: seq<Unit>, O: seq<Unit>, P: seq<Unit>)
    ensures var u := C + [10, 10] + (T + [32] + R) + O + ([10, 10] + P);
      var at := |C| + 2 + (|T| + 1 + |R|) + |O| + 2;
      at + |P| <= |u| && u[at..at + |P|] == P
  {
    var u := C + [10, 10] + (T + [32] + R) + O + ([10, 10] + P);
    assert u == (C + [10, 10] + (T + [32] + R) + O + [10, 10]) + P + [];
    PartAt(C + [10, 10] + (T + [32] + R) + O + [10, 10], P, []);
  }

  lemma TracebackAt(l: Layout)
    ensures TracebackEntity(l).offset
      == |Units(l.code)| + 2 + (|Units(l.title)| + 1 + |Units(l.result)|) + |Units(Tail(l.output))| + 2
  {
    TailUnits(l.output);
    StatusLen(l);
  }

  /** A slice found at `at` is covered by an entity placed there. */
  lemma CoversSlice(u: seq<Unit>, e: Entity, part: seq<Unit>, at: int)
    requires 0 <= at && at + |part| <= |u| && u[at..at + |part|] == part
    requires e.offset == at && e.length == |part|
    ensures Covers(u, e, part)
  {
  }

  lemma CoversCode(l: Layout)
    ensures Covers(Units(LayoutText(l)), CodeEntity(l), Units(l.code))
  {
    var C, T, R, O, B := Units(l.code), Units(l.title), Units(l.result), Units(Tail(l.output)), Units(Tail(l.traceback));
    var u := Units(LayoutText(l));
    assert u == C + [10, 10] + (T + [32] + R) + O + B by {
      LayoutUnits(l);
    }
    CodeIn(C, T, R, O, B);
    CoversSlice(u, CodeEntity(l), C, 0);
  }

  lemma CoversTitle(l: Layout)
    ensures Covers(Units(LayoutText(l)), TitleMark(l), Units(l.title))
  {
    var C, T, R, O, B := Units(l.code), Units(l.title), Units(l.result), Units(Tail(l.output)), Units(Tail(l.traceback));
    var u := Units(LayoutText(l));
    assert u == C + [10, 10] + (T + [32] + R) + O + B by {
      LayoutUnits(l);
    }
    TitleIn(C, T, R, O, B);
    CoversSlice(u, TitleMark(l), T, |C| + 2);
  }

  lemma CoversResult(l: Layout)
    ensures Covers(Units(LayoutText(l)), ResultEntity(l), Units(l.result))
  {
    var C, T, R, O, B := Units(l.code), Units(l.title), Units(l.result), Units(Tail(l.output)), Units(Tail(l.traceback));
    var u := Units(LayoutText(l));
    assert u == C + [10, 10] + (T + [32] + R) + O + B by {
      LayoutUnits(l);
    }
    ResultIn(C, T, R, O, B);
    CoversSlice(u, ResultEntity(l), R, |C| + 2 + |T| + 1);
  }

  lemma CoversOutput(l: Layout)
    ensures l.output != "" ==> Covers(Units(LayoutText(l)), OutputEntity(l), Units(l.output))
  {
    if l.output != "" {
      var C, T, R, P, B := Units(l.code), Units(l.title), Units(l.result), Units(l.output), Units(Tail(l.traceback));
      var u := Units(LayoutText(l));
      assert u == C + [10, 10] + (T + [32] + R) + ([10, 10] + P) + B by {
        LayoutUnits(l);
        TailUnits(l.output);
      }
      assert OutputEntity(l).offset == |C| + 2 + (|T| + 1 + |R|) + 2 by {
        StatusLen(l);
      }
      OutputIn(C, T, R, P, B);
      CoversSlice(u, OutputEntity(l), P, |C| + 2 + (|T| + 1 + |R|) + 2);
    }
  }

  lemma CoversTraceback(l: Layout)
    ensures l.traceback != "" ==> Covers(Units(LayoutText(l)), TracebackEntity(l), Units(l.traceback))
  {
    if l.traceback != "" {
      var C, T, R, O, P := Units(l.code), Units(l.title), Units(l.result), Units(Tail(l.output)), Units(l.traceback);
      var u := Units(LayoutText(l));
      assert u == C + [10, 10] + (T + [32] + R) + O + ([10, 10] + P) by {
        LayoutUnits(l);
        TailUnits(l.traceback);
      }
      TracebackAt(l);
      TracebackIn(C, T, R, O, P);
      CoversSlice(u, TracebackEntity(l), P, |C| + 2 + (|T| + 1 + |R|) + |O| + 2);
    }
  }

  /** Each named entity covers exactly the units of its part, and the list
      holds the result, output and traceback entities whenever those parts
      are rendered. */
  lemma LayoutCovers(l: Layout)
    ensures var es := LayoutEntities(l); var u := Units(LayoutText(l));
      && |es| >= 2 && es[0] == CodeEntity(l) && es[1] == TitleMark(l)
      && Covers(u, CodeEntity(l), Units(l.code))
      && Covers(u, TitleMark(l), Units(l.title))
      && (l.result != "" ==> ResultEntity(l) in es && Covers(u, ResultEntity(l), Units(l.result)))
      && (l.output != "" ==> OutputEntity(l) in es && Covers(u, OutputEntity(l), Units(l.output)))
      && (l.traceback != "" ==> TracebackEntity(l) in es && Covers(u, TracebackEntity(l), Units(l.traceback)))
  {
    Utf16LenPositive(l.result);
    CoversCode(l);
    CoversTitle(l);
    CoversResult(l);
    CoversOutput(l);
    CoversTraceback(l);
  }

  /** No entity after the first is a code block. */
  predicate OnlyFirstPre(es: seq<Entity>) {
    forall i :: 1 <= i < |es| ==> es[i].kind != Pre
  }

  lemma PushNotPre(es: seq<Entity>, e: Entity)
    requires |es| >= 1 && OnlyFirstPre(es) && e.kind != Pre
    ensures OnlyFirstPre(es + [e])
  {
  }

  /** The list starts with the `python` code block at offset 0, and no
      other entity is a code block. */
  lemma LayoutHead(l: Layout)
    ensures var es := LayoutEntities(l);
      && |es| >= 2 && es[0] == Entity(Pre, 0, Utf16Len(l.code), "", "python")
      && OnlyFirstPre(es)
  {
    var s0 := [CodeEntity(l), TitleMark(l)];
    assert OnlyFirstPre(s0);
    if Utf16Len(l.result) > 0 {
      PushNotPre(s0, ResultEntity(l));
    } else {
      assert StatusEntities(l) == s0;
    }
    if l.output != "" {
      PushNotPre(StatusEntities(l), OutputEntity(l));
    } else {
      assert BodyEntities(l) == StatusEntities(l);
    }
    if l.traceback != "" {
      PushNotPre(BodyEntities(l), TracebackEntity(l));
      assert LayoutEntities(l) == BodyEntities(l) + [TracebackEntity(l)];
    } else {
      assert LayoutEntities(l) == BodyEntities(l);
    }
  }

  lemma PushChained(es: seq<Entity>, e: Entity)
    requires Chained(es) && Before(es, e.offset)
    ensures Chained(es + [e])
  {
  }

  /** The code block, the title and the result, if any. */
  function StatusEntities(l: Layout): seq<Entity> {
    [CodeEntity(l), TitleMark(l)] + (if Utf16Len(l.result) > 0 then [ResultEntity(l)] else [])
  }

  /** Those and the output, if any. */
  function BodyEntities(l: Layout): seq<Entity> {
    StatusEntities(l) + (if l.output != "" then [OutputEntity(l)] else [])
  }

  lemma ChainedStatus(l: Layout)
    ensures Chained(StatusEntities(l)) && Before(StatusEntities(l), OutputAt(l) - 1)
  {
    StatusLen(l);
    var s0 := [CodeEntity(l), TitleMark(l)];
    assert Chained(s0);
    if Utf16Len(l.result) > 0 {
      PushChained(s0, ResultEntity(l));
    } else {
      assert StatusEntities(l) == s0;
    }
  }

  lemma ChainedBody(l: Layout)
    ensures Chained(BodyEntities(l)) && Before(BodyEntities(l), TracebackEntity(l).offset)
  {
    ChainedStatus(l);
    if l.output != "" {
      PushChained(StatusEntities(l), OutputEntity(l));
    } else {
      assert BodyEntities(l) == StatusEntities(l);
    }
  }

  lemma LayoutChained(l: Layout)
    ensures Chained(LayoutEntities(l))
  {
    ChainedBody(l);
    if l.traceback != "" {
      PushChained(BodyEntities(l), TracebackEntity(l));
      assert LayoutEntities(l) == BodyEntities(l) + [TracebackEntity(l)];
    } else {
      assert LayoutEntities(l) == BodyEntities(l);
    }
  }

  /** Every entity of the list is one of the named ones, each present only
      when its part is. */
  lemma LayoutMembers(l: Layout)
    ensures forall e :: e in LayoutEntities(l) ==>
      || e == CodeEntity(l) || e == TitleMark(l)
      || (l.result != "" && e == ResultEntity(l))
      || (l.output != "" && e == OutputEntity(l))
      || (l.traceback != "" && e == TracebackEntity(l))
  {
    Utf16LenPositive(l.result);
  }

  lemma LayoutInBounds(l: Layout)
    ensures InBounds(LayoutEntities(l), Utf16Len(LayoutText(l)))
  {
    LayoutMembers(l);
    CoversCode(l);
    CoversTitle(l);
    CoversResult(l);
    CoversOutput(l);
    CoversTraceback(l);
    var es := LayoutEntities(l);
    forall i | 0 <= i < |es|
      ensures 0 <= es[i].offset && 0 <= es[i].length && End(es[i]) <= Utf16Len(LayoutText(l))
    {
      assert es[i] in es;
    }
  }

  /** The laid-out entities are ordered, disjoint and inside the text. */
  lemma LayoutWellFormed(l: Layout)
    ensures WellFormed(LayoutEntities(l), Utf16Len(LayoutText(l)))
  {
    LayoutChained(l);
    LayoutInBounds(l);
    ChainedOrdered(LayoutEntities(l));
  }

  // ---------------------------------------------------------------------------
  // Truncation
  // ---------------------------------------------------------------------------

  /** The entity as cut to end by `n`. */
  function ClipOne(e: Entity, n: int): Entity {
    e.(length := Min(e.length, n - e.offset))
  }

  /** Entities that start inside the first `n` units, cut to end by `n`. */
  function Clip(es: seq<Entity>, n: int): (r: seq<Entity>)
    ensures |r| <= |es|
    ensures forall i :: 0 <= i < |r| ==> r[i].offset < n && End(r[i]) <= n
  {
    if es == [] then []
    else (if es[0].offset < n then [ClipOne(es[0], n)] else []) + Clip(es[1..], n)
  }

  /** What clipping keeps: exactly the entities starting before `n`, cut. */
  lemma {:induction false} ClipMembers(es: seq<Entity>, n: int)
    ensures forall i :: 0 <= i < |Clip(es, n)| ==>
      (exists j :: 0 <= j < |es| && es[j].offset < n && Clip(es, n)[i] == ClipOne(es[j], n))
    ensures forall j :: 0 <= j < |es| && es[j].offset < n ==> ClipOne(es[j], n) in Clip(es, n)
    decreases |es|
  {
    if es != [] {
      ClipMembers(es[1..], n);
      var head := if es[0].offset < n then [ClipOne(es[0], n)] else [];
      var rest := Clip(es[1..], n);
      assert Clip(es, n) == head + rest;
      forall i | 0 <= i < |Clip(es, n)|
        ensures exists j :: 0 <= j < |es| && es[j].offset < n && Clip(es, n)[i] == ClipOne(es[j], n)
      {
        if i < |head| {
          assert Clip(es, n)[i] == ClipOne(es[0], n);
        } else {
          var j :| 0 <= j < |es[1..]| && es[1..][j].offset < n && rest[i - |head|] == ClipOne(es[1..][j], n);
          assert es[1..][j] == es[j + 1];
        }
      }
      forall j | 0 <= j < |es| && es[j].offset < n
        ensures ClipOne(es[j], n) in Clip(es, n)
      {
        if j > 0 {
          assert es[j] == es[1..][j - 1];
        }
      }
    }
  }

  /** Clipping moves no entity: a lower bound on the offsets survives it. */
  lemma {:induction false} ClipOffsetsFrom(es: seq<Entity>, n: int, x: int)
    requires forall j :: 0 <= j < |es| ==> es[j].offset >= x
    ensures forall i :: 0 <= i < |Clip(es, n)| ==> Clip(es, n)[i].offset >= x
    decreases |es|
  {
    if es != [] {
      ClipOffsetsFrom(es[1..], n, x);
    }
  }

  /** Clipping keeps the entities' order and leaves them inside the cap. */
  lemma {:induction false} ClipWellFormed(es: seq<Entity>, n: int)
    requires Ordered(es) && NonNegative(es)
    ensures WellFormed(Clip(es, n), n)
    decreases |es|
  {
    if es != [] {
      var rest := Clip(es[1..], n);
      ClipWellFormed(es[1..], n);
      if es[0].offset < n {
        var h := ClipOne(es[0], n);
        assert Clip(es, n) == [h] + rest;
        ClipOffsetsFrom(es[1..], n, es[0].offset + 1);
        ClipOffsetsFrom(es[1..], n, End(es[0]));
        ConsWellFormed(h, rest, n);
      } else {
        assert Clip(es, n) == rest;
      }
    }
  }

  lemma ConsWellFormed(h: Entity, rest: seq<Entity>, n: int)
    requires WellFormed(rest, n) && 0 <= h.offset && 0 <= h.length && End(h) <= n
    requires forall k :: 0 <= k < |rest| ==> rest[k].offset > h.offset && rest[k].offset >= End(h)
    ensures WellFormed([h] + rest, n)
  {
    var r := [h] + rest;
    forall i, j | 0 <= i < j < |r|
      ensures r[i].offset < r[j].offset && End(r[i]) <= r[j].offset
    {
      assert r[j] == rest[j - 1];
      if i > 0 {
        assert r[i] == rest[i - 1];
      }
    }
  }

  /** Clipping changes nothing when every entity already ends by `n`. */
  lemma {:induction false} ClipInside(es: seq<Entity>, n: int)
    requires forall i :: 0 <= i < |es| ==> es[i].offset < n && End(es[i]) <= n
    ensures Clip(es, n) == es
  {
    if es != [] {
      assert es[0].(length := Min(es[0].length, n - es[0].offset)) == es[0];
      ClipInside(es[1..], n);
      assert es == [es[0]] + es[1..];
    }
  }

  /** The length check and the cut count code points of the plain text,
      while entity positions count UTF-16 units. */
  function Truncate(text: string, es: seq<Entity>): (r: Rendered)
    ensures |text| <= MaxLength ==> r == Rendered(text, es)
    ensures |text| > MaxLength ==>
      && |r.text| == MaxLength
      && r.text[..MaxLength - 1] == text[..MaxLength - 1]
      && r.text[MaxLength - 1] == Ellipsis
      && r.entities == Clip(es, MaxLength)
  {
    if |text| > MaxLength then
      var cut := text[..MaxLength - 1] + [Ellipsis];
      Rendered(cut, Clip(es, |cut|))
    else Rendered(text, es)
  }

  /** The pure part of `edit_message(message, code, result, traceback,
      output, is_running)`: the text and entities it sends. */
  function Render(code: string, result: string, traceback: string, output: string, isRunning: bool): (r: Rendered)
    ensures |r.text| <= MaxLength
    ensures WellFormed(r.entities, Utf16Len(r.text))
    ensures IsBmp(r.text) ==> Utf16Len(r.text) <= MaxLength
    ensures |r.entities| >= 1 && r.entities[0].kind == Pre && r.entities[0].offset == 0
  {
    var l := Arrange(code, result, traceback, output, isRunning);
    TruncateLayout(l);
    Truncate(LayoutText(l), LayoutEntities(l))
  }

  /** The sent entities stay well formed and still start with the code
      block, cut or not. */
  lemma TruncateLayout(l: Layout)
    ensures var r := Truncate(LayoutText(l), LayoutEntities(l));
      && WellFormed(r.entities, Utf16Len(r.text)) && |r.entities| >= 1
      && r.entities[0].kind == Pre && r.entities[0].offset == 0
  {
    var text := LayoutText(l);
    var es := LayoutEntities(l);
    LayoutWellFormed(l);
    LayoutHead(l);
    if |text| > MaxLength {
      TruncateCut(text, es);
    }
  }

  lemma TruncateCut(text: string, es: seq<Entity>)
    requires |text| > MaxLength
    requires WellFormed(es, Utf16Len(text)) && |es| >= 1 && es[0].kind == Pre && es[0].offset == 0
    ensures var r := Truncate(text, es);
      && WellFormed(r.entities, Utf16Len(r.text)) && |r.entities| >= 1
      && r.entities[0].kind == Pre && r.entities[0].offset == 0
  {
    var r := Truncate(text, es);
    ClipWellFormed(es, MaxLength);
    assert InBounds(r.entities, Utf16Len(r.text));
    assert r.entities == [ClipOne(es[0], MaxLength)] + Clip(es[1..], MaxLength);
  }

  // ---------------------------------------------------------------------------
  // Finding entities in a received message
  // ---------------------------------------------------------------------------

  predicate IsTitleLink(e: Entity) {
    e.kind == TextLink && (e.url == OldTitleUrl || e.url == TitleUrl)
  }

  /** `get_title_entity`: the first link to either title URL. */
  function GetTitleEntity(es: seq<Entity>): (r: Option<Entity>)
    ensures r.None? <==> forall i :: 0 <= i < |es| ==> !IsTitleLink(es[i])
    ensures r.Some? ==> exists i :: (0 <= i < |es| && es[i] == r.value && IsTitleLink(es[i])
      && forall j :: 0 <= j < i ==> !IsTitleLink(es[j]))
  {
    if es == [] then None
    else if IsTitleLink(es[0]) then Some(es[0])
    else
      var r := GetTitleEntity(es[1..]);
      assert forall j :: 1 <= j < |es| ==> es[j] == es[1..][j - 1];
      r
  }

  predicate IsPythonPre(e: Entity) {
    e.kind == Pre && e.language == "python"
  }

  /** One step of `get_united_code_entity`'s loop: the first `python` block
      is taken; a later one starting one unit after the current end is
      merged into it; everything else is skipped. */
  function UniteStep(acc: Option<Entity>, e: Entity): Option<Entity> {
    if !IsPythonPre(e) then acc
    else if acc.None? then Some(e)
    else if End(acc.value) + 1 == e.offset then Some(acc.value.(length := acc.value.length + e.length + 1))
    else acc
  }

  function Unite(es: seq<Entity>, acc: Option<Entity>): Option<Entity>
    decreases |es|
  {
    if es == [] then acc else Unite(es[1..], UniteStep(acc, es[0]))
  }

  /** Once a block is held, only its length can change. */
  lemma {:induction false} UniteKeeps(es: seq<Entity>, a: Entity)
    ensures Unite(es, Some(a)).Some?
    ensures Unite(es, Some(a)).value == a.(length := Unite(es, Some(a)).value.length)
    decreases |es|
  {
    if es != [] {
      var a' := UniteStep(Some(a), es[0]).value;
      UniteKeeps(es[1..], a');
    }
  }

  lemma {:induction false} UniteFirst(es: seq<Entity>)
    ensures Unite(es, None).None? <==> forall i :: 0 <= i < |es| ==> !IsPythonPre(es[i])
    ensures Unite(es, None).Some? ==> exists i :: (0 <= i < |es| && IsPythonPre(es[i])
      && (forall j :: 0 <= j < i ==> !IsPythonPre(es[j]))
      && Unite(es, None).value == es[i].(length := Unite(es, None).value.length))
    decreases |es|
  {
    if es != [] {
      assert forall j :: 1 <= j < |es| ==> es[j] == es[1..][j - 1];
      if IsPythonPre(es[0]) {
        UniteKeeps(es[1..], es[0]);
      } else {
        UniteFirst(es[1..]);
        if Unite(es, None).Some? {
          var i :| 0 <= i < |es[1..]| && IsPythonPre(es[1..][i])
            && (forall j :: 0 <= j < i ==> !IsPythonPre(es[1..][j]))
            && Unite(es[1..], None).value == es[1..][i].(length := Unite(es, None).value.length);
          assert IsPythonPre(es[i + 1]);
        }
      }
    }
  }

  /** `get_united_code_entity`: `None` when there is no `python` block,
      otherwise the first one with its length grown by each merged block. */
  function GetUnitedCodeEntity(es: seq<Entity>): (r: Option<Entity>)
    ensures r.None? <==> forall i :: 0 <= i < |es| ==> !IsPythonPre(es[i])
    ensures r.Some? ==> exists i :: (0 <= i < |es| && IsPythonPre(es[i])
      && (forall j :: 0 <= j < i ==> !IsPythonPre(es[j]))
      && r.value == es[i].(length := r.value.length))
  {
    UniteFirst(es);
    Unite(es, None)
  }

  /** `get_united_code_entity` is a left-to-right loop: appending an entity
      applies one more step to the result so far. With `MergeAdjacent` and
      `SkipDetached` this fixes the merge of any number of blocks. */
  lemma {:induction false} UniteSnoc(es: seq<Entity>, e: Entity, acc: Option<Entity>)
    ensures Unite(es + [e], acc) == UniteStep(Unite(es, acc), e)
    decreases |es|
  {
    if es == [] {
      assert [] + [e] == [e];
    } else {
      assert (es + [e])[1..] == es[1..] + [e];
      UniteSnoc(es[1..], e, UniteStep(acc, es[0]));
    }
  }

  /** The loop starts with nothing held and takes one step per entity. */
  lemma UnitedSnoc(es: seq<Entity>, e: Entity)
    ensures GetUnitedCodeEntity([]) == None
    ensures GetUnitedCodeEntity(es + [e]) == UniteStep(GetUnitedCodeEntity(es), e)
  {
    UniteSnoc(es, e, None);
  }

  /** The `python` blocks of a list, in order. */
  function PythonBlocks(es: seq<Entity>): (r: seq<Entity>)
    ensures forall i :: 0 <= i < |r| ==> IsPythonPre(r[i])
  {
    if es == [] then []
    else (if IsPythonPre(es[0]) then [es[0]] else []) + PythonBlocks(es[1..])
  }

  /** Entities other than `python` blocks play no part in the merge. */
  lemma {:induction false} UniteOnlyBlocks(es: seq<Entity>, acc: Option<Entity>)
    ensures Unite(es, acc) == Unite(PythonBlocks(es), acc)
    decreases |es|
  {
    if es != [] {
      UniteOnlyBlocks(es[1..], UniteStep(acc, es[0]));
      if IsPythonPre(es[0]) {
        var p := PythonBlocks(es);
        assert p == [es[0]] + PythonBlocks(es[1..]);
        assert p[1..] == PythonBlocks(es[1..]);
      } else {
        assert PythonBlocks(es) == PythonBlocks(es[1..]);
      }
    }
  }

  /** A block that starts one unit after the first one's end is merged,
      the separating unit included. */
  lemma MergeAdjacent(p: Entity, q: Entity)
    requires IsPythonPre(p) && IsPythonPre(q) && q.offset == End(p) + 1
    ensures GetUnitedCodeEntity([p, q]) == Some(p.(length := p.length + q.length + 1))
  {
    assert [p, q][1..] == [q];
    assert Unite([p, q], None) == Unite([q], Some(p));
    assert Unite([q], Some(p)) == Unite([], UniteStep(Some(p), q));
  }

  /** A block anywhere else is skipped. */
  lemma SkipDetached(p: Entity, q: Entity)
    requires IsPythonPre(p) && IsPythonPre(q) && q.offset != End(p) + 1
    ensures GetUnitedCodeEntity([p, q]) == Some(p)
  {
    assert [p, q][1..] == [q];
    assert Unite([p, q], None) == Unite([q], Some(p));
    assert Unite([q], Some(p)) == Unite([], UniteStep(Some(p), q));
  }

  /** With a single `python` block, that block is the result unchanged. */
  lemma {:induction false} UniteSingle(es: seq<Entity>, k: nat)
    requires k < |es| && IsPythonPre(es[k])
    requires forall i :: 0 <= i < |es| && i != k ==> !IsPythonPre(es[i])
    ensures GetUnitedCodeEntity(es) == Some(es[k])
  {
    UniteOnlyBlocks(es, None);
    PythonBlocksSingle(es, k);
    assert [es[k]][1..] == [];
  }

  lemma {:induction false} PythonBlocksSingle(es: seq<Entity>, k: nat)
    requires k < |es| && IsPythonPre(es[k])
    requires forall i :: 0 <= i < |es| && i != k ==> !IsPythonPre(es[i])
    ensures PythonBlocks(es) == [es[k]]
    decreases |es|
  {
    if k == 0 {
      PythonBlocksNone(es[1..]);
    } else {
      PythonBlocksSingle(es[1..], k - 1);
    }
  }

  lemma {:induction false} PythonBlocksNone(es: seq<Entity>)
    requires forall i :: 0 <= i < |es| ==> !IsPythonPre(es[i])
    ensures PythonBlocks(es) == []
    decreases |es|
  {
    if es != [] {
      PythonBlocksNone(es[1..]);
    }
  }
}

=== FILE: handlers.dfy ===
/** `tgpy/_handlers/__init__.py`: what happens to a new or edited message.
    The hooks, `parse_code` and the evaluation itself are outside this
    model: the hooks and `parse_code` are parameters, and an evaluation is
    reported as an action rather than performed. */
module Handlers {
  import opened Wrappers
  import opened Text
  import opened Types
  import opened MessageDesign
  import opened ParseMessage
  import opened ReactionsFix

  /** What `exec_hooks.apply(message, is_edit=...)` gave: the (possibly
      rewritten) message, a falsy value, or an exception. */
  datatype HookResult = Kept(message: Message) | Dropped | Raised

  /** The visible effect of handling one message. */
  datatype Action =
    | Nothing
      /** The message was re-rendered with the warning as its result. */
    | Warned(edited: Message)
      /** `eval_message(code, message)` was called. */
    | Evaluated(code: string, message: Message)
      /** `send_error(chat_id)` was called. */
    | ErrorNotice(chatId: int)

  datatype Outcome = Outcome(store: HashStore, action: Action)

  const WarningText: string := "Edit message again to evaluate"

  /** The message `edit_message(message, code, result)` leaves behind: the
      rendered text and entities in place of the old ones. */
  function EditedTo(m: Message, code: string, result: string): (e: Message)
    ensures KeyOf(e) == KeyOf(m)
    ensures e.text == Render(code, result, "", "", false).text
    ensures e.entities == Render(code, result, "", "", false).entities
  {
    var r := Render(code, result, "", "", false);
    m.(text := r.text, entities := r.entities)
  }

  /** The end of `handle_message` once the code is known: show the warning
      (and record the edited message persistently, as `edit_message`
      does) or evaluate. `handle_message` itself records nothing before an
      evaluation; what the evaluation records is `eval_message`'s affair. */
  function Finish(st: HashStore, m: Message, code: string, onlyShowWarning: bool,
                  hash: Content -> Digest): (o: Outcome)
    ensures o.action.Warned? <==> onlyShowWarning
    ensures onlyShowWarning ==> o.action == Warned(EditedTo(m, code, WarningText))
    ensures onlyShowWarning ==>
      && KeyOf(o.action.edited) == KeyOf(m)
      && o.store.durable - {KeyOf(m)} == st.durable - {KeyOf(m)}
      && KeyOf(m) !in o.store.inMemory
      && o.store.inMemory - {KeyOf(m)} == st.inMemory - {KeyOf(m)}
      && CheckHash(o.store, o.action.edited, hash) == Ignore
      && CheckHash(HashStore(map[], o.store.durable), o.action.edited, hash) == Ignore
    ensures !onlyShowWarning ==> o.store == st && o.action == Evaluated(code, m)
  {
    if onlyShowWarning then
      var w := EditedTo(m, code, WarningText);
      UpdateThenIgnore(st, w, false, hash);
      Outcome(UpdateHash(st, Some(w), false, hash), Warned(w))
    else Outcome(st, Evaluated(code, m))
  }

  /** `handle_message(original, only_show_warning=...)`. A managed message
      goes through the hooks as an edit and must still be managed after
      them; any other message goes through the hooks as new and must be
      accepted by `parse_code`. A message rejected on the plain path by
      `parse_code` gets an in-memory fingerprint; one rejected by the hooks
      gets nothing, since `update_hash` is handed the falsy hook result.
      An exception becomes an error notice in the original chat.

      Parsing lengthens the first `python` block of the message it reads in
      place, so the hooks see `Merged(original)`, and a managed message is
      evaluated or warned about as `Merged` of the hooks' version. */
  function HandleMessage(st: HashStore, original: Message, onlyShowWarning: bool,
                         hooks: (Message, bool) -> HookResult, parseCode: string -> bool,
                         hash: Content -> Digest): (o: Outcome)
    ensures original.text == "" && original.caption == "" ==> o == Outcome(st, Nothing)
    ensures o.action.ErrorNotice? ==> o.action.chatId == original.chatId && o.store == st
    ensures onlyShowWarning ==> !o.action.Evaluated?
    ensures !onlyShowWarning ==> !o.action.Warned?
    ensures o.action.Evaluated? ==> o.store == st
    ensures o.store != st ==> o.action.Warned? || o.action.Nothing?
    ensures o.action.Warned? ==> CheckHash(o.store, o.action.edited, hash) == Ignore
  {
    if original.text == "" && original.caption == "" then Outcome(st, Nothing)
    else
      match ParseTgpyMessage(original)
      case Failure(_) => Outcome(st, ErrorNotice(original.chatId))
      case Success(data) =>
        if data.isTgpyMessage then
          match hooks(Merged(original), true)
          case Raised => Outcome(st, ErrorNotice(original.chatId))
          case Dropped => Outcome(st, Nothing)
          case Kept(m) =>
            match ParseTgpyMessage(m)
            case Failure(_) => Outcome(st, ErrorNotice(original.chatId))
            case Success(data') =>
              if !data'.isTgpyMessage then Outcome(st, Nothing)
              else Finish(st, Merged(m), data'.code.value, onlyShowWarning, hash)
        else
          match hooks(Merged(original), false)
          case Raised => Outcome(st, ErrorNotice(original.chatId))
          case Dropped => Outcome(UpdateHash(st, None, true, hash), Nothing)
          case Kept(m) =>
            if !parseCode(SourceText(m)) then Outcome(UpdateHash(st, Some(m), true, hash), Nothing)
            else Finish(st, m, SourceText(m), onlyShowWarning, hash)
  }

  /** What raises inside `handle_message` in this model: parsing the
      original, the hooks, or parsing the hooks' version of a managed
      message. */
  predicate Raises(original: Message, hooks: (Message, bool) -> HookResult) {
    match ParseTgpyMessage(original)
    case Failure(_) => true
    case Success(d) =>
      || hooks(Merged(original), d.isTgpyMessage) == Raised
      || (d.isTgpyMessage && hooks(Merged(original), true).Kept?
          && ParseTgpyMessage(hooks(Merged(original), true).message).Failure?)
  }

  /** An exception while handling a message with text or caption becomes
      an error notice in the original chat and records nothing; the notice
      is sent for nothing else. */
  lemma ErrorsNotified(st: HashStore, original: Message, onlyShowWarning: bool,
                       hooks: (Message, bool) -> HookResult, parseCode: string -> bool,
                       hash: Content -> Digest)
    requires original.text != "" || original.caption != ""
    ensures var o := HandleMessage(st, original, onlyShowWarning, hooks, parseCode, hash);
      && (Raises(original, hooks) ==> o == Outcome(st, ErrorNotice(original.chatId)))
      && (o.action.ErrorNotice? ==> Raises(original, hooks))
  {
  }

  /** `on_new_message_handler`. */
  function OnNewMessage(st: HashStore, m: Message, hooks: (Message, bool) -> HookResult,
                        parseCode: string -> bool, hash: Content -> Digest): (o: Outcome)
    ensures o == HandleMessage(st, m, false, hooks, parseCode, hash)
    ensures !o.action.Warned?
    ensures o.store == st || o.action == Nothing
  {
    HandleMessage(st, m, false, hooks, parseCode, hash)
  }

  /** `on_message_edited_handler`. `broadcast` says the message is in a
      broadcast channel; `running` holds the keys of messages being
      evaluated. A running message and an unchanged fingerprint end
      handling; a message never recorded only gets the warning. */
  function OnMessageEdited(st: HashStore, m: Message, broadcast: bool, running: set<Key>,
                           hooks: (Message, bool) -> HookResult, parseCode: string -> bool,
                           hash: Content -> Digest): (o: Outcome)
    ensures broadcast || KeyOf(m) in running ==> o == Outcome(st, Nothing)
    ensures o.action.Evaluated? ==> !broadcast && KeyOf(m) !in running && CheckHash(st, m, hash) == Evaluate
    ensures o.action.Warned? ==> CheckHash(st, m, hash) == ShowWarning
    ensures o.action.Warned? ==> CheckHash(o.store, o.action.edited, hash) == Ignore
    ensures !broadcast && KeyOf(m) !in running && CheckHash(st, m, hash) != Ignore ==>
      o == HandleMessage(st, m, CheckHash(st, m, hash) == ShowWarning, hooks, parseCode, hash)
  {
    if broadcast then Outcome(st, Nothing)
    else if KeyOf(m) in running then Outcome(st, Nothing)
    else
      match CheckHash(st, m, hash)
      case Ignore => Outcome(st, Nothing)
      case ShowWarning => HandleMessage(st, m, true, hooks, parseCode, hash)
      case Evaluate => HandleMessage(st, m, false, hooks, parseCode, hash)
  }

  // ---------------------------------------------------------------------------
  // Properties
  // ---------------------------------------------------------------------------

  /** An edit event whose fingerprint matches the recorded one does nothing
      at all: this is what keeps a reaction from re-running code. */
  lemma IgnoredEditDoesNothing(st: HashStore, m: Message, broadcast: bool, running: set<Key>,
                               hooks: (Message, bool) -> HookResult, parseCode: string -> bool,
                               hash: Content -> Digest)
    requires CheckHash(st, m, hash) == Ignore
    ensures OnMessageEdited(st, m, broadcast, running, hooks, parseCode, hash) == Outcome(st, Nothing)
  {
  }

  /** The warning's own edit event, and any reaction on the warned message,
      is ignored. */
  lemma WarningThenReactionIgnored(st: HashStore, m: Message, broadcast: bool, running: set<Key>,
                                   hooks: (Message, bool) -> HookResult, parseCode: string -> bool,
                                   hash: Content -> Digest, event: Message, running': set<Key>)
    requires OnMessageEdited(st, m, broadcast, running, hooks, parseCode, hash).action.Warned?
    requires var w := OnMessageEdited(st, m, broadcast, running, hooks, parseCode, hash).action.edited;
      KeyOf(event) == KeyOf(w) && event.text == w.text && event.entities == w.entities
    ensures var o := OnMessageEdited(st, m, broadcast, running, hooks, parseCode, hash);
      OnMessageEdited(o.store, event, broadcast, running', hooks, parseCode, hash) == Outcome(o.store, Nothing)
  {
    var o := OnMessageEdited(st, m, broadcast, running, hooks, parseCode, hash);
    var w := o.action.edited;
    assert ContentOf(event) == ContentOf(w);
    assert CheckHash(o.store, event, hash) == CheckHash(o.store, w, hash);
  }

  /** A plain message the hooks reject records nothing, so a later edit of
      it is classified exactly as before. */
  lemma HookRejectedRecordsNothing(st: HashStore, m: Message, onlyShowWarning: bool,
                                   hooks: (Message, bool) -> HookResult, parseCode: string -> bool,
                                   hash: Content -> Digest)
    requires m.text != "" || m.caption != ""
    requires ParseTgpyMessage(m) == Success(NotManaged)
    requires hooks(Merged(m), false) == Dropped
    ensures HandleMessage(st, m, onlyShowWarning, hooks, parseCode, hash) == Outcome(st, Nothing)
  {
  }

  /** A plain message that is not code gets an in-memory fingerprint of the
      hooks' version: an event with that version's text and entities is
      ignored until the in-memory tier is lost, and the persisted tier is
      untouched. */
  lemma NotCodeRecordedInMemory(st: HashStore, m: Message, onlyShowWarning: bool,
                                hooks: (Message, bool) -> HookResult, parseCode: string -> bool,
                                hash: Content -> Digest, kept: Message)
    requires m.text != "" || m.caption != ""
    requires ParseTgpyMessage(m) == Success(NotManaged)
    requires hooks(Merged(m), false) == Kept(kept) && !parseCode(SourceText(kept))
    ensures var o := HandleMessage(st, m, onlyShowWarning, hooks, parseCode, hash);
      && o.action == Nothing
      && o.store.durable == st.durable
      && CheckHash(o.store, kept, hash) == Ignore
  {
    UpdateThenIgnore(st, kept, true, hash);
  }

  /** The in-place merge shows in the record: when the hooks pass on the
      merged message and its fingerprint differs from the message as sent,
      a later event carrying the sent entities, such as a reaction, says
      evaluate rather than ignore. */
  lemma MergedRecordMissesReaction(st: HashStore, m: Message, onlyShowWarning: bool,
                                   hooks: (Message, bool) -> HookResult, parseCode: string -> bool,
                                   hash: Content -> Digest, event: Message)
    requires m.text != "" || m.caption != ""
    requires ParseTgpyMessage(m) == Success(NotManaged)
    requires hooks(Merged(m), false) == Kept(Merged(m)) && !parseCode(SourceText(m))
    requires hash(ContentOf(m)) != hash(ContentOf(Merged(m)))
    requires KeyOf(event) == KeyOf(m) && event.text == m.text && event.entities == m.entities
    ensures var o := HandleMessage(st, m, onlyShowWarning, hooks, parseCode, hash);
      CheckHash(o.store, event, hash) == Evaluate
  {
    assert SourceText(Merged(m)) == SourceText(m);
    assert ContentOf(event) == ContentOf(m);
    EditThenEvaluate(st, Merged(m), event, true, hash);
  }

  /** A managed message that a hook drops, or rewrites into something no
      longer managed, is never evaluated and records nothing. */
  lemma BrokenByHookDropped(st: HashStore, m: Message, onlyShowWarning: bool,
                            hooks: (Message, bool) -> HookResult, parseCode: string -> bool,
                            hash: Content -> Digest)
    requires m.text != "" || m.caption != ""
    requires ParseTgpyMessage(m).Success? && ParseTgpyMessage(m).value.isTgpyMessage
    requires hooks(Merged(m), true) == Dropped
      || (hooks(Merged(m), true).Kept? && ParseTgpyMessage(hooks(Merged(m), true).message) == Success(NotManaged))
    ensures HandleMessage(st, m, onlyShowWarning, hooks, parseCode, hash) == Outcome(st, Nothing)
  {
  }

  /** A managed message kept by the hooks is evaluated with the code read
      back from the hooks' version of it, as that parse leaves it. */
  lemma ManagedEvaluatesParsedCode(st: HashStore, m: Message,
                                   hooks: (Message, bool) -> HookResult, parseCode: string -> bool,
                                   hash: Content -> Digest, kept: Message)
    requires m.text != "" || m.caption != ""
    requires ParseTgpyMessage(m).Success? && ParseTgpyMessage(m).value.isTgpyMessage
    requires hooks(Merged(m), true) == Kept(kept)
    requires ParseTgpyMessage(kept).Success? && ParseTgpyMessage(kept).value.isTgpyMessage
    ensures HandleMessage(st, m, false, hooks, parseCode, hash)
      == Outcome(st, Evaluated(ParseTgpyMessage(kept).value.code.value, Merged(kept)))
  {
  }

  /** The main path: a plain message the hooks keep and `parse_code`
      accepts is evaluated, or warned about, with the kept message's text
      (or caption) as its code. */
  lemma PlainCodeFinishes(st: HashStore, m: Message, onlyShowWarning: bool,
                          hooks: (Message, bool) -> HookResult, parseCode: string -> bool,
                          hash: Content -> Digest, kept: Message)
    requires m.text != "" || m.caption != ""
    requires ParseTgpyMessage(m) == Success(NotManaged)
    requires hooks(Merged(m), false) == Kept(kept) && parseCode(SourceText(kept))
    ensures HandleMessage(st, m, onlyShowWarning, hooks, parseCode, hash)
      == Finish(st, kept, SourceText(kept), onlyShowWarning, hash)
    ensures !onlyShowWarning ==>
      HandleMessage(st, m, onlyShowWarning, hooks, parseCode, hash) == Outcome(st, Evaluated(SourceText(kept), kept))
  {
  }

  /** A managed message the hooks keep managed is evaluated, or warned
      about, with the code read back from the hooks' version. */
  lemma ManagedFinishes(st: HashStore, m: Message, onlyShowWarning: bool,
                        hooks: (Message, bool) -> HookResult, parseCode: string -> bool,
                        hash: Content -> Digest, kept: Message)
    requires m.text != "" || m.caption != ""
    requires ParseTgpyMessage(m).Success? && ParseTgpyMessage(m).value.isTgpyMessage
    requires hooks(Merged(m), true) == Kept(kept)
    requires ParseTgpyMessage(kept).Success? && ParseTgpyMessage(kept).value.isTgpyMessage
    ensures HandleMessage(st, m, onlyShowWarning, hooks, parseCode, hash)
      == Finish(st, Merged(kept), ParseTgpyMessage(kept).value.code.value, onlyShowWarning, hash)
  {
  }

  /** A new plain message that is code, passed on by the hooks as they got
      it, is evaluated with its text, and the store is left alone. */
  lemma NewCodeEvaluated(st: HashStore, m: Message,
                         hooks: (Message, bool) -> HookResult, parseCode: string -> bool,
                         hash: Content -> Digest)
    requires m.text != ""
    requires ParseTgpyMessage(m) == Success(NotManaged)
    requires hooks(Merged(m), false) == Kept(Merged(m)) && parseCode(m.text)
    ensures OnNewMessage(st, m, hooks, parseCode, hash) == Outcome(st, Evaluated(m.text, Merged(m)))
  {
    PlainCodeFinishes(st, m, false, hooks, parseCode, hash, Merged(m));
  }

  /** An edit of a message never recorded, outside broadcast channels and
      not running, shows the warning instead of evaluating. */
  lemma UnrecordedEditWarns(st: HashStore, m: Message, running: set<Key>,
                            hooks: (Message, bool) -> HookResult, parseCode: string -> bool,
                            hash: Content -> Digest)
    requires KeyOf(m) !in running
    requires KeyOf(m) !in st.inMemory && KeyOf(m) !in st.durable
    requires m.text != ""
    requires ParseTgpyMessage(m) == Success(NotManaged)
    requires hooks(Merged(m), false) == Kept(Merged(m)) && parseCode(m.text)
    ensures var o := OnMessageEdited(st, m, false, running, hooks, parseCode, hash);
      o.action == Warned(EditedTo(m, m.text, WarningText))
  {
    PlainCodeFinishes(st, m, true, hooks, parseCode, hash, Merged(m));
    assert EditedTo(Merged(m), m.text, WarningText) == EditedTo(m, m.text, WarningText);
  }

  /** Re-sending a rendered message through the hooks unchanged evaluates
      its original stripped code (non-empty BMP code, untruncated). */
  lemma RenderedMessageEvaluatesItsCode(code: string, result: string, traceback: string, output: string,
                                        isRunning: bool, chatId: int, id: int, st: HashStore,
                                        hooks: (Message, bool) -> HookResult, parseCode: string -> bool,
                                        hash: Content -> Digest)
    requires var l := Arrange(code, result, traceback, output, isRunning);
      l.code != "" && IsBmp(l.code) && |LayoutText(l)| <= MaxLength
    requires var r := Render(code, result, traceback, output, isRunning);
      var m := Message(chatId, id, r.text, "", r.entities);
      hooks(m, true) == Kept(m)
    ensures var r := Render(code, result, traceback, output, isRunning);
      var m := Message(chatId, id, r.text, "", r.entities);
      HandleMessage(st, m, false, hooks, parseCode, hash) == Outcome(st, Evaluated(Strip(code), m))
  {
    var r := Render(code, result, traceback, output, isRunning);
    var m := Message(chatId, id, r.text, "", r.entities);
    var l := Arrange(code, result, traceback, output, isRunning);
    RenderParseRoundTrip(code, result, traceback, output, isRunning, chatId, id);
    assert m.text != "" && Merged(m) == m by {
      RenderUntruncated(code, result, traceback, output, isRunning);
      LayoutNotBlank(l, isRunning);
      LayoutHead(l);
      LayoutCodeBlock(l);
      MergedLeading(m);
    }
  }

  /** `edit_message(message, code, result)` with a stripped, non-empty
      result parses back to the stripped code and that result (non-empty
      BMP code, untruncated). */
  lemma EditedParsesBack(m: Message, code: string, result: string)
    requires result != "" && IsStripped(result)
    requires var l := Arrange(code, result, "", "", false);
      l.code != "" && IsBmp(l.code) && |LayoutText(l)| <= MaxLength
    ensures ParseTgpyMessage(EditedTo(m, code, result).(caption := ""))
      == Success(MessageParseResult(true, Some(Strip(code)), Some(result)))
  {
    var r := Render(code, result, "", "", false);
    assert EditedTo(m, code, result).(caption := "") == Message(m.chatId, m.id, r.text, "", r.entities);
    RenderParseRoundTrip(code, result, "", "", false, m.chatId, m.id);
    ResultAlone(code, result);
  }

  /** The warning keeps the code: parsing the warned message gives back the
      code that would have been evaluated, and the warning as the result
      (non-empty BMP code whose warning rendering is untruncated). */
  lemma WarningKeepsCode(st: HashStore, m: Message, code: string, hash: Content -> Digest)
    requires var l := Arrange(code, WarningText, "", "", false);
      l.code != "" && IsBmp(l.code) && |LayoutText(l)| <= MaxLength
    ensures var o := Finish(st, m, code, true, hash);
      ParseTgpyMessage(o.action.edited.(caption := ""))
        == Success(MessageParseResult(true, Some(Strip(code)), Some(WarningText)))
  {
    WarningStripped();
    EditedParsesBack(m, code, WarningText);
    assert Finish(st, m, code, true, hash).action.edited == EditedTo(m, code, WarningText);
  }

  lemma WarningStripped()
    ensures WarningText != "" && IsStripped(WarningText)
  {
    assert WarningText[0] == 'E' && WarningText[|WarningText| - 1] == 'e';
  }

  /** A stripped, non-empty result alone is the whole of what follows the
      title. */
  lemma ResultAlone(code: string, result: string)
    requires result != "" && IsStripped(result)
    ensures var l := Arrange(code, result, "", "", false);
      Strip(l.result + Tail(l.output) + Tail(l.traceback)) == result
  {
    var l := Arrange(code, result, "", "", false);
    assert Promote(result, "", "") == Slots(result, "", "");
    StripOfStripped(result);
    StripOfStripped("");
    assert l.result + Tail(l.output) + Tail(l.traceback) == result;
  }
}

=== FILE: parse.dfy ===
/** `tgpy/api/parse_tgpy_message.py`: deciding whether a message is a
    rendered invocation and reading its code and previous result back. */
module ParseMessage {
  import opened Wrappers
  import opened Text
  import opened Types
  import opened MessageDesign

  datatype MessageParseResult = MessageParseResult(isTgpyMessage: bool, code: Option<string>, result: Option<string>)

  const NotManaged := MessageParseResult(false, None, None)

  /** What parsing can raise: a slice bound inside a surrogate pair makes
      the UTF-16 decode fail. */
  datatype ParseError = UnicodeDecodeError

  /** `message.text or message.caption or ''`. */
  function SourceText(m: Message): string {
    if m.text != "" then m.text else if m.caption != "" then m.caption else ""
  }

  /** True when the merged `python` block is missing or does not start the
      message. */
  predicate Unanchored(m: Message) {
    var e := GetUnitedCodeEntity(m.entities);
    e.None? || e.value.offset != 0
  }

  /** The managed branch of `parse_tgpy_message`, for source text `src`,
      merged block `e` and `at`, the code-point index of the first `>` at
      or after `e.offset + e.length` (or -1): the code is the first
      `e.length` UTF-16 units (all of the text when that length is 0),
      stripped; the result is everything after `at`, stripped. Either slice
      may fail to decode. */
  function ReadBack(src: string, e: Entity, at: int): (r: Result<MessageParseResult, ParseError>)
    ensures r.Success? ==>
      && r.value.isTgpyMessage && r.value.code.Some? && r.value.result.Some?
      && IsStripped(r.value.code.value) && IsStripped(r.value.result.value)
    ensures IsBmp(src) ==> r.Success?
  {
    match Utf16Slice(src, Some(e.offset), Some(e.length))
    case None => Failure(UnicodeDecodeError)
    case Some(code) =>
      match Utf16Slice(src, Some(at + 1), None)
      case None => Failure(UnicodeDecodeError)
      case Some(result) => Success(MessageParseResult(true, Some(Strip(code)), Some(Strip(result))))
  }

  /** `parse_tgpy_message`. */
  function ParseTgpyMessage(m: Message): (r: Result<MessageParseResult, ParseError>)
    ensures Unanchored(m) <==> r == Success(NotManaged)
    ensures r.Success? && r.value.isTgpyMessage ==>
      && r.value.code.Some? && r.value.result.Some?
      && IsStripped(r.value.code.value) && IsStripped(r.value.result.value)
    ensures r.Success? && !r.value.isTgpyMessage ==> r.value == NotManaged
    ensures IsBmp(SourceText(m)) ==> r.Success?
  {
    var e := GetUnitedCodeEntity(m.entities);
    if e.None? || e.value.offset != 0 then Success(NotManaged)
    else
      var src := SourceText(m);
      ReadBack(src, e.value, FindFrom(src, '>', e.value.offset + e.value.length))
  }

  /** The list with its first `python` block replaced by `e`. */
  function SetFirstBlock(es: seq<Entity>, e: Entity): (r: seq<Entity>)
    ensures |r| == |es|
  {
    if es == [] then []
    else if IsPythonPre(es[0]) then [e] + es[1..]
    else [es[0]] + SetFirstBlock(es[1..], e)
  }

  /** Only the first `python` block is replaced; everything around it is
      kept in place. */
  lemma {:induction false} SetFirstBlockAt(es: seq<Entity>, e: Entity, i: nat)
    requires i < |es| && IsPythonPre(es[i])
    requires forall j :: 0 <= j < i ==> !IsPythonPre(es[j])
    ensures SetFirstBlock(es, e) == es[..i] + [e] + es[i + 1..]
    decreases i
  {
    if i > 0 {
      assert !IsPythonPre(es[0]);
      assert forall j :: 0 <= j < i - 1 ==> es[1..][j] == es[j + 1];
      SetFirstBlockAt(es[1..], e, i - 1);
      assert es[1..][..i - 1] == es[1..i];
      assert es[1..][i..] == es[i + 1..];
      assert [es[0]] + es[1..i] == es[..i];
    }
  }

  /** The message as `parse_tgpy_message` leaves it: `get_united_code_entity`
      lengthens the first `python` block in place to the merged span, and
      every later reader of the same message object sees that length. */
  function Merged(m: Message): (r: Message)
    ensures r.text == m.text && r.caption == m.caption && KeyOf(r) == KeyOf(m)
    ensures |r.entities| == |m.entities|
    ensures GetUnitedCodeEntity(m.entities).None? ==> r == m
  {
    match GetUnitedCodeEntity(m.entities)
    case None => m
    case Some(e) => m.(entities := SetFirstBlock(m.entities, e))
  }

  /** The first `python` block takes the merged length; no other entity
      changes. */
  lemma MergedBlock(m: Message, i: nat)
    requires i < |m.entities| && IsPythonPre(m.entities[i])
    requires forall j :: 0 <= j < i ==> !IsPythonPre(m.entities[j])
    ensures GetUnitedCodeEntity(m.entities).Some?
    ensures Merged(m).entities
      == m.entities[..i] + [m.entities[i].(length := GetUnitedCodeEntity(m.entities).value.length)] + m.entities[i + 1..]
  {
    var es := m.entities;
    var u := GetUnitedCodeEntity(es);
    assert !(forall k :: 0 <= k < |es| ==> !IsPythonPre(es[k]));
    var k :| 0 <= k < |es| && IsPythonPre(es[k])
      && (forall j :: 0 <= j < k ==> !IsPythonPre(es[j]))
      && u.value == es[k].(length := u.value.length);
    assert k == i;
    SetFirstBlockAt(es, u.value, i);
  }

  /** A message whose first entity is a `python` block that nothing merges
      into is left as it was. */
  lemma MergedLeading(m: Message)
    requires |m.entities| >= 1 && IsPythonPre(m.entities[0])
    requires GetUnitedCodeEntity(m.entities) == Some(m.entities[0])
    ensures Merged(m) == m
  {
    assert [m.entities[0]] + m.entities[1..] == m.entities;
  }

  lemma BmpAppend(a: string, b: string)
    requires IsBmp(a) && IsBmp(b)
    ensures IsBmp(a + b)
  {
    assert forall i :: |a| <= i < |a + b| ==> (a + b)[i] == b[i - |a|];
  }

  /** The code-point index of the `>` closing a layout's title. */
  function TitleEnd(l: Layout): int {
    |l.code| + |Separator| + |l.title| - 1
  }

  /** The first `>` after the code is the one closing the title. */
  lemma FindTitleMark(l: Layout, isRunning: bool)
    requires l.title == TitleLine(isRunning)
    ensures FindFrom(LayoutText(l), '>', |l.code|) == TitleEnd(l)
  {
    var text := LayoutText(l);
    var c := |l.code|;
    var p := c + |Separator| + |l.title| - 1;
    var pre := l.code + Separator + l.title;
    assert text == pre + (" " + l.result + Tail(l.output) + Tail(l.traceback));
    assert text[p] == pre[p] == l.title[|l.title| - 1] == '>';
    forall k | c <= k < p
      ensures text[k] != '>'
    {
      assert text[k] == pre[k];
      if k < c + 2 {
        assert pre[k] == Separator[k - c];
      } else {
        assert pre[k] == l.title[k - c - 2];
      }
    }
    assert PyIndex(c, |text|) == c;
    FindAtIs(text, '>', c, p);
  }

  /** The merged block of a rendered message is its code block. */
  lemma LayoutCodeBlock(l: Layout)
    ensures GetUnitedCodeEntity(LayoutEntities(l)) == Some(CodeEntity(l))
  {
    LayoutHead(l);
    UniteSingle(LayoutEntities(l), 0);
  }

  lemma LayoutCodeSlice(l: Layout)
    requires l.code != ""
    ensures Utf16Slice(LayoutText(l), Some(0), Some(Utf16Len(l.code))) == Some(l.code)
  {
    var after := Separator + StatusLine(l) + Tail(l.output) + Tail(l.traceback);
    assert LayoutText(l) == l.code + after;
    SliceBeforeSuffix(l.code, after);
  }

  /** Regrouping the layout text around the end of the title. */
  lemma LayoutAfterTitle(l: Layout)
    ensures LayoutText(l) == (l.code + Separator + l.title) + (" " + (l.result + Tail(l.output) + Tail(l.traceback)))
  {
    var a, b, t, r, o, x := l.code, Separator, l.title, l.result, Tail(l.output), Tail(l.traceback);
    assert StatusLine(l) == t + " " + r;
    assert a + b + (t + " " + r) + o + x == (a + b + t) + (" " + (r + o + x));
  }

  lemma LayoutResultSlice(l: Layout, isRunning: bool)
    requires l.title == TitleLine(isRunning) && IsBmp(l.code)
    ensures Utf16Slice(LayoutText(l), Some(TitleEnd(l) + 1), None) == Some(" " + (l.result + Tail(l.output) + Tail(l.traceback)))
  {
    var pre := l.code + Separator + l.title;
    LayoutAfterTitle(l);
    BmpAppend(l.code, Separator);
    BmpAppend(l.code + Separator, l.title);
    assert Utf16Len(pre) == |pre|;
    SliceAfterPrefix(pre, " " + (l.result + Tail(l.output) + Tail(l.traceback)));
  }

  /** `parse_tgpy_message` step by step, for a message whose merged block
      starts it and whose two slices decode. */
  lemma ParseSteps(m: Message, e: Entity, code: string, at: int, result: string)
    requires GetUnitedCodeEntity(m.entities) == Some(e) && e.offset == 0
    requires Utf16Slice(SourceText(m), Some(0), Some(e.length)) == Some(code)
    requires FindFrom(SourceText(m), '>', e.length) == at
    requires Utf16Slice(SourceText(m), Some(at + 1), None) == Some(result)
    ensures ParseTgpyMessage(m) == Success(MessageParseResult(true, Some(Strip(code)), Some(Strip(result))))
  {
    var src := SourceText(m);
    assert e.offset + e.length == e.length;
    ManagedReadsBack(m, e);
    ReadBackSteps(src, e, at, code, result);
  }

  /** A message whose merged block starts the text is read back from it. */
  lemma ManagedReadsBack(m: Message, e: Entity)
    requires GetUnitedCodeEntity(m.entities) == Some(e) && e.offset == 0
    ensures ParseTgpyMessage(m) == ReadBack(SourceText(m), e, FindFrom(SourceText(m), '>', e.offset + e.length))
  {
    var u := GetUnitedCodeEntity(m.entities);
    assert !(u.None? || u.value.offset != 0);
  }

  lemma ReadBackSteps(src: string, e: Entity, at: int, code: string, result: string)
    requires Utf16Slice(src, Some(e.offset), Some(e.length)) == Some(code)
    requires Utf16Slice(src, Some(at + 1), None) == Some(result)
    ensures ReadBack(src, e, at) == Success(MessageParseResult(true, Some(Strip(code)), Some(Strip(result))))
  {
  }

  /** Parsing an untruncated layout whose code is non-empty BMP text. */
  lemma ParseLayout(l: Layout, isRunning: bool, chatId: int, id: int)
    requires l.title == TitleLine(isRunning) && l.code != "" && IsBmp(l.code) && IsStripped(l.code)
    ensures ParseTgpyMessage(Message(chatId, id, LayoutText(l), "", LayoutEntities(l)))
      == Success(MessageParseResult(true, Some(l.code), Some(Strip(l.result + Tail(l.output) + Tail(l.traceback)))))
  {
    var m := Message(chatId, id, LayoutText(l), "", LayoutEntities(l));
    LayoutCodeBlock(l);
    assert SourceText(m) == LayoutText(l);
    FindTitleMark(l, isRunning);
    assert ParseTgpyMessage(m) == ReadBack(LayoutText(l), CodeEntity(l), TitleEnd(l));
    LayoutReadBack(l, isRunning);
  }

  /** The managed branch read over an untruncated layout. */
  lemma LayoutReadBack(l: Layout, isRunning: bool)
    requires l.title == TitleLine(isRunning) && l.code != "" && IsBmp(l.code) && IsStripped(l.code)
    ensures ReadBack(LayoutText(l), CodeEntity(l), TitleEnd(l))
      == Success(MessageParseResult(true, Some(l.code), Some(Strip(l.result + Tail(l.output) + Tail(l.traceback)))))
  {
    var rest := l.result + Tail(l.output) + Tail(l.traceback);
    assert Utf16Len(l.code) == |l.code|;
    LayoutCodeSlice(l);
    LayoutResultSlice(l, isRunning);
    ReadBackSteps(LayoutText(l), CodeEntity(l), TitleEnd(l), l.code, " " + rest);
    StripOfStripped(l.code);
    StripSpacePrefix(" ", rest);
  }

  /** Below the length limit the rendered message is the layout itself. */
  lemma RenderUntruncated(code: string, result: string, traceback: string, output: string, isRunning: bool)
    requires |LayoutText(Arrange(code, result, traceback, output, isRunning))| <= MaxLength
    ensures var l := Arrange(code, result, traceback, output, isRunning);
      Render(code, result, traceback, output, isRunning) == Rendered(LayoutText(l), LayoutEntities(l))
  {
  }

  /** Parsing a freshly rendered message gives back its stripped code and,
      as the result, everything rendered after the title, stripped. This
      holds when the stripped code is non-empty BMP text and the message was
      not truncated; the rest of the text may hold any characters. */
  lemma RenderParseRoundTrip(code: string, result: string, traceback: string, output: string,
                             isRunning: bool, chatId: int, id: int)
    requires var l := Arrange(code, result, traceback, output, isRunning);
      l.code != "" && IsBmp(l.code) && |LayoutText(l)| <= MaxLength
    ensures var l := Arrange(code, result, traceback, output, isRunning);
      var r := Render(code, result, traceback, output, isRunning);
      ParseTgpyMessage(Message(chatId, id, r.text, "", r.entities))
        == Success(MessageParseResult(true, Some(Strip(code)),
                                      Some(Strip(l.result + Tail(l.output) + Tail(l.traceback)))))
  {
    RenderUntruncated(code, result, traceback, output, isRunning);
    ParseLayout(Arrange(code, result, traceback, output, isRunning), isRunning, chatId, id);
  }

  /** With nothing after the result, the parsed result is the rendered
      result: the one passed in, or the output or traceback promoted into
      its place. */
  lemma RenderParseResult(code: string, result: string, traceback: string, output: string,
                          isRunning: bool, chatId: int, id: int)
    requires var l := Arrange(code, result, traceback, output, isRunning);
      l.code != "" && IsBmp(l.code) && |LayoutText(l)| <= MaxLength
    requires var s := Promote(result, output, traceback);
      Strip(s.output) == "" && Strip(s.traceback) == ""
    ensures var r := Render(code, result, traceback, output, isRunning);
      var p := ParseTgpyMessage(Message(chatId, id, r.text, "", r.entities));
      p.Success? && p.value.result == Some(Strip(Promote(result, output, traceback).result))
  {
    var l := Arrange(code, result, traceback, output, isRunning);
    var s := Promote(result, output, traceback);
    assert Strip(l.result + Tail(l.output) + Tail(l.traceback)) == Strip(s.result) by {
      assert l.result == Strip(s.result) && l.output == "" && l.traceback == "";
      assert l.result + Tail(l.output) + Tail(l.traceback) == l.result;
      StripIdempotent(s.result);
    }
    RenderParseRoundTrip(code, result, traceback, output, isRunning, chatId, id);
  }

  /** The zero-length quirk on a layout: a code block of length 0 reads as
      the whole text. */
  lemma ParseEmptyCode(l: Layout, isRunning: bool, chatId: int, id: int)
    requires l.title == TitleLine(isRunning) && l.code == ""
    ensures var p := ParseTgpyMessage(Message(chatId, id, LayoutText(l), "", LayoutEntities(l)));
      p.Success? && p.value.isTgpyMessage && p.value.code == Some(Strip(LayoutText(l)))
  {
    var text := LayoutText(l);
    var m := Message(chatId, id, text, "", LayoutEntities(l));
    LayoutCodeBlock(l);
    assert CodeEntity(l).length == 0;
    assert SourceText(m) == text;
    SliceStopZero(text, Some(0));
    assert Units(text)[0..|Units(text)|] == Units(text);
    DecodeUnits(text);
    FindTitleMark(l, isRunning);
    LayoutResultSlice(l, isRunning);
    ParseSteps(m, CodeEntity(l), text, TitleEnd(l),
               " " + (l.result + Tail(l.output) + Tail(l.traceback)));
  }

  /** A layout's text is never blank: the title is in it. */
  lemma LayoutNotBlank(l: Layout, isRunning: bool)
    requires l.title == TitleLine(isRunning)
    ensures Strip(LayoutText(l)) != ""
  {
    LayoutAfterTitle(l);
    var k := |l.code| + |Separator| + |l.title| - 1;
    assert LayoutText(l)[k] == '>';
    StripBlank(LayoutText(l));
  }

  /** The zero-length quirk: when the stripped code is empty the code block
      has length 0, the slice stop 0 reads as "to the end", and the parsed
      code is the whole rendered text, stripped, which is not empty. */
  lemma EmptyCodeReadsWholeText(code: string, result: string, traceback: string, output: string,
                                isRunning: bool, chatId: int, id: int)
    requires var l := Arrange(code, result, traceback, output, isRunning);
      l.code == "" && |LayoutText(l)| <= MaxLength
    ensures var l := Arrange(code, result, traceback, output, isRunning);
      var r := Render(code, result, traceback, output, isRunning);
      var p := ParseTgpyMessage(Message(chatId, id, r.text, "", r.entities));
      p.Success? && p.value.isTgpyMessage && p.value.code == Some(Strip(LayoutText(l)))
      && Strip(LayoutText(l)) != ""
  {
    var l := Arrange(code, result, traceback, output, isRunning);
    RenderUntruncated(code, result, traceback, output, isRunning);
    ParseEmptyCode(l, isRunning, chatId, id);
    LayoutNotBlank(l, isRunning);
  }
}

=== FILE: prevent_eval.dfy ===
/** `tgpy/std/prevent_eval.py`: the built-in hook that keeps some messages
    from being evaluated. `cancel`/`stop` (or the same keys typed on a
    Russian layout) cancel an invocation, `//` marks a comment, and
    messages put on the ignored list are never evaluated again. */
module PreventEval {
  import opened Wrappers
  import opened Text
  import opened Types
  import opened MessageDesign
  import opened ParseMessage
  import opened ReactionsFix

  // ---------------------------------------------------------------------------
  // CANCEL_RGX and INTERRUPT_RGX
  // ---------------------------------------------------------------------------

  /** The characters a pattern letter matches under `re.IGNORECASE`: the
      letter, its upper-case form, and the extra equivalents Python's `re`
      adds for `s` (long s), `с` (wide es), `т` (tall and three-legged te)
      and `д` (long-legged de). */
  function Variants(p: char): (v: set<char>)
    ensures p in v
  {
    match p
    case 's' => {'s', 'S', '\U{17F}'}
    case '\U{441}' => {'\U{441}', '\U{421}', '\U{1C83}'}
    case '\U{442}' => {'\U{442}', '\U{422}', '\U{1C84}', '\U{1C85}'}
    case '\U{434}' => {'\U{434}', '\U{414}', '\U{1C81}'}
    case _ =>
      if 'a' <= p <= 'z' then {p, (p as int - 32) as char}
      else if '\U{430}' <= p <= '\U{44F}' then {p, (p as int - 32) as char}
      else {p}
  }

  /** `fullmatch` of a single-word alternative: the whole text, letter by
      letter, ignoring case. */
  predicate MatchesWord(text: string, word: string) {
    |text| == |word| && forall i :: 0 <= i < |text| ==> text[i] in Variants(word[i])
  }

  const Cancel: string := "cancel"
  /** `cancel` typed on a Russian keyboard layout. */
  const CancelRu: string := "\U{441}\U{444}\U{442}\U{441}\U{443}\U{434}"
  const Stop: string := "stop"
  /** `stop` typed on a Russian keyboard layout. */
  const StopRu: string := "\U{44B}\U{435}\U{449}\U{437}"

  /** `CANCEL_RGX.fullmatch`: the whole text is one of the two words, so
      nothing may surround it. */
  predicate IsCancel(text: string)
    ensures IsCancel(text) ==> |text| == 6
  {
    MatchesWord(text, Cancel) || MatchesWord(text, CancelRu)
  }

  /** `INTERRUPT_RGX.fullmatch`. */
  predicate IsInterrupt(text: string)
    ensures IsInterrupt(text) ==> |text| == 4
  {
    MatchesWord(text, Stop) || MatchesWord(text, StopRu)
  }

  /** `//` followed by something other than whitespace. */
  predicate IsComment(text: string)
    ensures IsComment(text) ==> |text| >= 3 && text[0] == '/' && text[1] == '/'
  {
    if |text| >= 2 && text[0] == '/' && text[1] == '/' then
      StripBlank(text[2..]);
      Strip(text[2..]) != ""
    else false
  }

  /** What `exec_hook` does with a message. */
  datatype HookDecision = AlreadyIgnored | Pass | CancelIt(permanent: bool) | CommentIt

  /** `exec_hook`'s classification; only `Pass` makes the hook return
      `True`. A message without text is never a command. */
  function ExecHook(m: Message, ignored: seq<Key>): (d: HookDecision)
    ensures KeyOf(m) in ignored <==> d == AlreadyIgnored
    ensures d == Pass <==>
      KeyOf(m) !in ignored && !IsCancel(m.text) && !IsInterrupt(m.text) && !IsComment(m.text)
    ensures d == CancelIt(true) <==> KeyOf(m) !in ignored && IsCancel(m.text)
    ensures d == CancelIt(false) <==> KeyOf(m) !in ignored && IsInterrupt(m.text)
    ensures d == CommentIt ==> IsComment(m.text)
  {
    if KeyOf(m) in ignored then AlreadyIgnored
    else
      var text := m.text;
      var isComment := IsComment(text);
      var isCancel := IsCancel(text);
      var isInterrupt := IsInterrupt(text);
      assert !(isCancel && isInterrupt) by { CancelNotInterrupt(text); }
      if !isComment && !isCancel && !isInterrupt then Pass
      else if isCancel || isInterrupt then CancelIt(isCancel)
      else CommentIt
  }

  // ---------------------------------------------------------------------------
  // Properties of the classification
  // ---------------------------------------------------------------------------

  lemma CancelNotInterrupt(text: string)
    ensures !(IsCancel(text) && IsInterrupt(text))
  {
  }

  /** Every command starts with a letter, never with `/`. */
  lemma CommandStartsWithLetter(text: string)
    requires IsCancel(text) || IsInterrupt(text)
    ensures |text| > 0 && text[0] != '/'
  {
    if MatchesWord(text, Cancel) {
      assert text[0] in Variants('c');
    } else if MatchesWord(text, CancelRu) {
      assert text[0] in Variants('\U{441}');
    } else if MatchesWord(text, Stop) {
      assert text[0] in Variants('s');
    } else {
      assert text[0] in Variants('\U{44B}');
    }
  }

  /** A cancel or interrupt command is never also a comment, so the order
      `exec_hook` tests them in never decides anything. */
  lemma CommandsAreNotComments(text: string)
    requires IsCancel(text) || IsInterrupt(text)
    ensures !IsComment(text)
  {
    CommandStartsWithLetter(text);
    if |text| >= 2 {
      assert text[..2][0] == text[0];
    }
  }

  /** Case does not matter, surrounding whitespace does. */
  lemma CommandExamples()
    ensures IsCancel("cancel") && IsCancel("CANCEL") && IsCancel("CaNcEl")
    ensures IsCancel("\U{421}\U{424}\U{422}\U{421}\U{423}\U{414}")
    ensures IsInterrupt("Stop") && IsInterrupt("\U{17F}top") && IsInterrupt("\U{42B}\U{415}\U{429}\U{417}")
    ensures !IsCancel("cancel ") && !IsCancel("cancel\n") && !IsInterrupt("stop!")
  {
    assert MatchesWord("CANCEL", Cancel) by {
      assert forall i :: 0 <= i < 6 ==> "CANCEL"[i] in Variants(Cancel[i]);
    }
    assert MatchesWord("CaNcEl", Cancel) by {
      assert forall i :: 0 <= i < 6 ==> "CaNcEl"[i] in Variants(Cancel[i]);
    }
    assert MatchesWord("\U{421}\U{424}\U{422}\U{421}\U{423}\U{414}", CancelRu) by {
      var t := "\U{421}\U{424}\U{422}\U{421}\U{423}\U{414}";
      assert forall i :: 0 <= i < 6 ==> t[i] in Variants(CancelRu[i]);
    }
    assert MatchesWord("Stop", Stop);
    assert MatchesWord("\U{17F}top", Stop);
    assert MatchesWord("\U{42B}\U{415}\U{429}\U{417}", StopRu) by {
      var t := "\U{42B}\U{415}\U{429}\U{417}";
      assert forall i :: 0 <= i < 4 ==> t[i] in Variants(StopRu[i]);
    }
  }

  /** `//` and only whitespace is not a comment; `//` and anything else is. */
  lemma CommentNeedsContent(w: string)
    ensures IsComment("//" + w) <==> !AllSpace(w)
  {
    assert ("//" + w)[..2] == "//" && ("//" + w)[2..] == w;
    StripBlank(w);
  }

  /** A message on the ignored list stays there whatever its text becomes. */
  lemma IgnoredStaysIgnored(m: Message, ignored: seq<Key>, text: string, entities: seq<Entity>)
    requires KeyOf(m) in ignored
    ensures ExecHook(m.(text := text, entities := entities), ignored) == AlreadyIgnored
  {
  }

  // ---------------------------------------------------------------------------
  // handle_comment
  // ---------------------------------------------------------------------------

  /** The entity move for a dropped `//`: entities starting in it are cut
      to start at 0, the rest move two units left. */
  function ShiftOne(e: Entity): Entity {
    if e.offset < 2 then e.(offset := 0, length := e.length - (2 - e.offset))
    else e.(offset := e.offset - 2)
  }

  function Shift(es: seq<Entity>): seq<Entity> {
    seq(|es|, i requires 0 <= i < |es| => ShiftOne(es[i]))
  }

  /** `text[2:]`. */
  function DropTwo(text: string): (r: string)
    ensures |text| >= 2 ==> text == text[..2] + r
    ensures |text| < 2 ==> r == ""
  {
    if |text| >= 2 then text[2..] else ""
  }

  datatype CommentEdit = CommentEdit(ignored: seq<Key>, edited: Message)

  /** `handle_comment`: the message goes on the ignored list and is edited
      to its text without the first two characters, entities moved along. */
  function HandleComment(ignored: seq<Key>, m: Message): (r: CommentEdit)
    ensures r.ignored == ignored + [KeyOf(m)]
    ensures KeyOf(r.edited) == KeyOf(m)
    ensures |m.text| >= 2 ==> m.text == m.text[..2] + r.edited.text
    ensures |r.edited.entities| == |m.entities|
  {
    CommentEdit(ignored + [KeyOf(m)], m.(text := DropTwo(m.text), entities := Shift(m.entities)))
  }

  lemma SlashesUnits(rest: string)
    ensures Units("//" + rest) == [47, 47] + Units(rest)
  {
    UnitsAppend("//", rest);
    assert Units("//") == [47, 47] by {
      assert "//"[1..] == "/";
      assert "/"[1..] == "";
    }
  }

  /** The moved entity covers, in the edited text, exactly the part of the
      original entity's span that lies after the `//`. */
  lemma ShiftCovers(rest: string, e: Entity)
    requires 0 <= e.offset <= End(e) && 2 <= End(e) <= Utf16Len("//" + rest)
    ensures var e' := ShiftOne(e);
      var lo := if e.offset < 2 then 2 else e.offset;
      && 0 <= e'.offset <= End(e') == End(e) - 2 <= Utf16Len(rest)
      && Units(rest)[e'.offset..End(e')] == Units("//" + rest)[lo..End(e)]
  {
    SlashesUnits(rest);
    ShiftOneMoves(e);
    var lo := if e.offset < 2 then 2 else e.offset;
    SliceAfter([47, 47], Units(rest), lo, End(e));
  }

  lemma ShiftOneMoves(e: Entity)
    requires 0 <= e.offset <= End(e) && 2 <= End(e)
    ensures ShiftOne(e).offset == (if e.offset < 2 then 0 else e.offset - 2)
    ensures End(ShiftOne(e)) == End(e) - 2
  {
  }

  lemma SliceAfter<T>(p: seq<T>, q: seq<T>, i: int, j: int)
    requires |p| <= i <= j <= |p| + |q|
    ensures (p + q)[i..j] == q[i - |p|..j - |p|]
  {
  }

  /** For every entity of a well-formed `//` message that reaches past the
      slashes, the edited message's entity covers the same characters. */
  lemma CommentKeepsFormatting(ignored: seq<Key>, m: Message, i: nat)
    requires |m.text| >= 2 && m.text[..2] == "//"
    requires i < |m.entities| && 0 <= m.entities[i].offset <= End(m.entities[i])
    requires 2 <= End(m.entities[i]) <= Utf16Len(m.text)
    ensures var r := HandleComment(ignored, m);
      var e := m.entities[i];
      var e' := r.edited.entities[i];
      var lo := if e.offset < 2 then 2 else e.offset;
      && 0 <= e'.offset <= End(e') <= |Units(r.edited.text)|
      && Units(r.edited.text)[e'.offset..End(e')] == Units(m.text)[lo..End(e)]
  {
    var rest := m.text[2..];
    assert m.text == "//" + rest;
    ShiftCovers(rest, m.entities[i]);
  }

  /** After `handle_comment` the message is ignored by every later call of
      the hook, in particular on the edit event its own edit causes. */
  lemma CommentedStaysIgnored(ignored: seq<Key>, m: Message, later: Message)
    requires KeyOf(later) == KeyOf(m)
    ensures ExecHook(later, HandleComment(ignored, m).ignored) == AlreadyIgnored
  {
    assert KeyOf(m) == (ignored + [KeyOf(m)])[|ignored|];
  }

  // ---------------------------------------------------------------------------
  // cancel_message
  // ---------------------------------------------------------------------------

  /** What `cancel_message` did: whether it cancelled a running task, what
      it returned, the message as edited, and the two stores afterwards. */
  datatype CancelOutcome = CancelOutcome(taskCancelled: bool, returned: bool, edited: Option<Message>,
                                         ignored: seq<Key>, store: HashStore)

  /** `cancel_message(message, permanent)`. The message is parsed first
      (which may raise), then a running task for it is cancelled, then a
      managed message is edited down to its code and either put on the
      ignored list (permanent) or recorded with a persistent fingerprint.
      `running` is the set of keys with a running evaluation task. */
  function CancelMessage(m: Message, permanent: bool, running: set<Key>, ignored: seq<Key>,
                         store: HashStore, hash: Content -> Digest): (r: Result<CancelOutcome, ParseError>)
    ensures r.Failure? <==> ParseTgpyMessage(m).Failure?
    ensures r.Success? ==>
      && r.value.taskCancelled == (KeyOf(m) in running)
      && (r.value.returned <==> !Unanchored(m))
      && (r.value.returned <==> r.value.edited.Some?)
    ensures r.Success? && !r.value.returned ==> r.value.ignored == ignored && r.value.store == store
    ensures r.Success? && r.value.returned ==>
      var e := r.value.edited.value;
      && KeyOf(e) == KeyOf(m) && Some(e.text) == ParseTgpyMessage(m).value.code && e.entities == []
      && (permanent ==> r.value.ignored == ignored + [KeyOf(m)] && r.value.store == store)
      && (!permanent ==> r.value.ignored == ignored && r.value.store == UpdateHash(store, Some(e), false, hash))
  {
    var parsed :- ParseTgpyMessage(m);
    var taskCancelled := KeyOf(m) in running;
    if !parsed.isTgpyMessage then
      Success(CancelOutcome(taskCancelled, false, None, ignored, store))
    else
      var edited := m.(text := parsed.code.value, entities := []);
      if permanent then
        Success(CancelOutcome(taskCancelled, true, Some(edited), ignored + [KeyOf(edited)], store))
      else
        Success(CancelOutcome(taskCancelled, true, Some(edited), ignored,
                              UpdateHash(store, Some(edited), false, hash)))
  }

  /** After a permanent cancel the hook ignores the message from then on. */
  lemma PermanentCancelSticks(m: Message, running: set<Key>, ignored: seq<Key>, store: HashStore,
                              hash: Content -> Digest, later: Message)
    requires KeyOf(later) == KeyOf(m)
    requires var r := CancelMessage(m, true, running, ignored, store, hash); r.Success? && r.value.returned
    ensures ExecHook(later, CancelMessage(m, true, running, ignored, store, hash).value.ignored) == AlreadyIgnored
  {
    var r := CancelMessage(m, true, running, ignored, store, hash);
    assert KeyOf(m) == r.value.ignored[|ignored|];
  }

  /** After a non-permanent cancel the edit event caused by the cancel's own
      edit is ignored, while a later real edit is evaluated again. */
  lemma StopIgnoresOwnEdit(m: Message, running: set<Key>, ignored: seq<Key>, store: HashStore,
                           hash: Content -> Digest, later: Message)
    requires var r := CancelMessage(m, false, running, ignored, store, hash); r.Success? && r.value.returned
    requires KeyOf(later) == KeyOf(m)
    ensures var r := CancelMessage(m, false, running, ignored, store, hash);
      var e := r.value.edited.value;
      && CheckHash(r.value.store, e, hash) == Ignore
      && (hash(ContentOf(later)) != hash(ContentOf(e)) ==> CheckHash(r.value.store, later, hash) == Evaluate)
  {
    var r := CancelMessage(m, false, running, ignored, store, hash);
    var e := r.value.edited.value;
    UpdateThenIgnore(store, e, false, hash);
    if hash(ContentOf(later)) != hash(ContentOf(e)) {
      EditThenEvaluate(store, e, later, false, hash);
    }
  }

  /** Cancelling a freshly rendered message leaves exactly its stripped code
      (for non-empty BMP code and an untruncated message). */
  lemma CancelRenderedLeavesCode(code: string, result: string, traceback: string, output: string,
                                 isRunning: bool, chatId: int, id: int, permanent: bool,
                                 running: set<Key>, ignored: seq<Key>, store: HashStore,
                                 hash: Content -> Digest)
    requires var l := Arrange(code, result, traceback, output, isRunning);
      l.code != "" && IsBmp(l.code) && |LayoutText(l)| <= MaxLength
    ensures var r := Render(code, result, traceback, output, isRunning);
      var c := CancelMessage(Message(chatId, id, r.text, "", r.entities), permanent, running, ignored, store, hash);
      c.Success? && c.value.returned && c.value.edited.value.text == Strip(code)
  {
    RenderParseRoundTrip(code, result, traceback, output, isRunning, chatId, id);
  }
}

=== FILE: reactions.dfy ===
/** `tgpy/reactions_fix.py`: the content fingerprint of a message and the
    two-tier store of fingerprints that tells a real edit from the edit
    event a reaction can trigger.

    The fingerprint is `base64(sha256(utf8(data)))` of a canonical string
    `data` built from the entity list and the text. `Content` is that data
    held structurally, and the digest function is a parameter `hash`; every
    property below holds for any such function. */
module ReactionsFix {
  import opened Wrappers
  import opened Types

  /** A base64-encoded SHA-256 digest: 44 characters. */
  type Digest = s: string | |s| == 44 witness "AAAAAAAAAAAAAAAAAAAAAAAAAAAAAAAAAAAAAAAAAAA="

  /** The transport name of an entity type, as `e.type.name` gives it. */
  function TypeName(k: EntityKind): string {
    match k
    case Pre => "PRE"
    case Bold => "BOLD"
    case Code => "CODE"
    case TextLink => "TEXT_LINK"
    case Other(name) => name
  }

  /** One entity's JSON object: type, offset and length always; url and
      language only when non-empty. */
  datatype EntityRecord = EntityRecord(typeName: string, offset: int, length: int,
                                       url: Option<string>, language: Option<string>)

  /** What the fingerprint is taken over: the entity count, the entity
      records in order, and the text. The caption is not part of it. */
  datatype Content = Content(count: nat, records: seq<EntityRecord>, text: string)

  /** A url or language field is written only when it is non-empty. */
  function NonEmpty(s: string): Option<string> {
    if s != "" then Some(s) else None
  }

  function RecordOf(e: Entity): EntityRecord {
    EntityRecord(TypeName(e.kind), e.offset, e.length, NonEmpty(e.url), NonEmpty(e.language))
  }

  /** The data `get_content_hash` fingerprints. */
  function ContentOf(m: Message): Content {
    Content(|m.entities|, seq(|m.entities|, i requires 0 <= i < |m.entities| => RecordOf(m.entities[i])), m.text)
  }

  /** Two entities are indistinguishable to the fingerprint. */
  predicate SameForHash(a: Entity, b: Entity) {
    TypeName(a.kind) == TypeName(b.kind) && a.offset == b.offset && a.length == b.length
    && a.url == b.url && a.language == b.language
  }

  /** Two entities give the same JSON record exactly when the fingerprint
      cannot tell them apart; an empty url or language is left out, so it
      matches only another empty one. */
  lemma RecordEqual(a: Entity, b: Entity)
    ensures RecordOf(a) == RecordOf(b) <==> SameForHash(a, b)
  {
    if RecordOf(a) == RecordOf(b) {
      assert NonEmpty(a.url) == NonEmpty(b.url) && NonEmpty(a.language) == NonEmpty(b.language);
    }
  }

  /** Two messages get the same fingerprint data exactly when their texts
      agree and their entity lists agree entry by entry on type name,
      offset, length, url and language. */
  lemma ContentEqual(m1: Message, m2: Message)
    ensures ContentOf(m1) == ContentOf(m2) <==>
      (&& m1.text == m2.text && |m1.entities| == |m2.entities|
       && forall i :: 0 <= i < |m1.entities| ==> SameForHash(m1.entities[i], m2.entities[i]))
  {
    var c1, c2 := ContentOf(m1), ContentOf(m2);
    if ContentOf(m1) == ContentOf(m2) {
      forall i | 0 <= i < |m1.entities|
        ensures SameForHash(m1.entities[i], m2.entities[i])
      {
        assert c1.records[i] == c2.records[i];
      }
    }
  }

  /** A change confined to the caption, the ids or the chat leaves the
      fingerprint data as it was. */
  lemma CaptionNotHashed(m: Message, caption: string, chatId: int, id: int)
    ensures ContentOf(m.(caption := caption, chatId := chatId, id := id)) == ContentOf(m)
  {
  }

  /** `ReactionsFixResult`. */
  datatype Verdict = Ignore | Evaluate | ShowWarning

  /** `in_memory_hashes` and the persisted keys under
      `core.reactions_fix.messages.<chat>.<id>`, both keyed by
      `(chat id, message id)`. */
  datatype HashStore = HashStore(inMemory: map<Key, Digest>, durable: map<Key, Digest>)

  /** The fingerprint a message was last recorded with: the in-memory one
      shadows the persisted one. */
  function Saved(st: HashStore, k: Key): (o: Option<Digest>)
    ensures o.None? <==> k !in st.inMemory && k !in st.durable
  {
    if k in st.inMemory then Some(st.inMemory[k])
    else if k in st.durable then Some(st.durable[k])
    else None
  }

  /** `check_hash`. */
  function CheckHash(st: HashStore, m: Message, hash: Content -> Digest): (v: Verdict)
    ensures v == ShowWarning <==> KeyOf(m) !in st.inMemory && KeyOf(m) !in st.durable
    ensures KeyOf(m) in st.inMemory ==> (v == Ignore <==> st.inMemory[KeyOf(m)] == hash(ContentOf(m)))
    ensures KeyOf(m) !in st.inMemory && KeyOf(m) in st.durable ==>
      (v == Ignore <==> st.durable[KeyOf(m)] == hash(ContentOf(m)))
  {
    match Saved(st, KeyOf(m))
    case None => ShowWarning
    case Some(d) => if d == hash(ContentOf(m)) then Ignore else Evaluate
  }

  /** `update_hash(message, in_memory=...)`. Nothing happens for `None`; an
      in-memory update sets only the in-memory entry; a persistent one
      drops the in-memory entry and writes the persisted one. */
  function UpdateHash(st: HashStore, m: Option<Message>, inMemory: bool, hash: Content -> Digest): (st': HashStore)
    ensures m.None? ==> st' == st
    ensures m.Some? ==>
      var k := KeyOf(m.value);
      && (forall k' :: k' != k ==> Saved(st', k') == Saved(st, k'))
      && st'.inMemory - {k} == st.inMemory - {k}
      && st'.durable - {k} == st.durable - {k}
      && (inMemory ==> st'.durable == st.durable && k in st'.inMemory
                       && st'.inMemory[k] == hash(ContentOf(m.value)))
      && (!inMemory ==> k !in st'.inMemory && k in st'.durable
                        && st'.durable[k] == hash(ContentOf(m.value)))
  {
    match m
    case None => st
    case Some(msg) =>
      var k := KeyOf(msg);
      var d := hash(ContentOf(msg));
      if inMemory then st.(inMemory := st.inMemory[k := d])
      else HashStore(st.inMemory - {k}, st.durable[k := d])
  }

  // ---------------------------------------------------------------------------
  // Properties
  // ---------------------------------------------------------------------------

  /** Recording a message and then checking the same content, in either
      mode, says ignore. */
  lemma UpdateThenIgnore(st: HashStore, m: Message, inMemory: bool, hash: Content -> Digest)
    ensures CheckHash(UpdateHash(st, Some(m), inMemory, hash), m, hash) == Ignore
  {
    var st' := UpdateHash(st, Some(m), inMemory, hash);
    assert Saved(st', KeyOf(m)) == Some(hash(ContentOf(m)));
  }

  /** After recording, an event for the same message whose fingerprint
      differs says evaluate. */
  lemma EditThenEvaluate(st: HashStore, m: Message, edited: Message, inMemory: bool, hash: Content -> Digest)
    requires KeyOf(edited) == KeyOf(m)
    requires hash(ContentOf(edited)) != hash(ContentOf(m))
    ensures CheckHash(UpdateHash(st, Some(m), inMemory, hash), edited, hash) == Evaluate
  {
    var st' := UpdateHash(st, Some(m), inMemory, hash);
    assert Saved(st', KeyOf(m)) == Some(hash(ContentOf(m)));
  }

  /** A reaction changes neither text nor entities, so the event it
      triggers is ignored, whatever else about the message changed. */
  lemma ReactionIgnored(st: HashStore, m: Message, event: Message, inMemory: bool, hash: Content -> Digest)
    requires KeyOf(event) == KeyOf(m)
    requires event.text == m.text && event.entities == m.entities
    ensures CheckHash(UpdateHash(st, Some(m), inMemory, hash), event, hash) == Ignore
  {
    assert ContentOf(event) == ContentOf(m);
    UpdateThenIgnore(st, m, inMemory, hash);
  }

  /** Recording one message leaves every other message's verdict as it was. */
  lemma UpdateIsolated(st: HashStore, m: Message, other: Message, inMemory: bool, hash: Content -> Digest)
    requires KeyOf(other) != KeyOf(m)
    ensures CheckHash(UpdateHash(st, Some(m), inMemory, hash), other, hash) == CheckHash(st, other, hash)
  {
  }

  /** An in-memory record shadows the persisted one without replacing it:
      dropping the in-memory tier (a restart) brings the persisted verdict
      back. */
  lemma InMemoryShadows(st: HashStore, m: Message, hash: Content -> Digest)
    ensures var st' := UpdateHash(st, Some(m), true, hash);
      && st'.durable == st.durable
      && CheckHash(HashStore(map[], st'.durable), m, hash) == CheckHash(HashStore(map[], st.durable), m, hash)
  {
  }

  /** A persistent record survives losing the in-memory tier. */
  lemma DurableSurvivesRestart(st: HashStore, m: Message, hash: Content -> Digest)
    ensures var st' := UpdateHash(st, Some(m), false, hash);
      CheckHash(HashStore(map[], st'.durable), m, hash) == Ignore
  {
  }

  /** A persistent record replaces a stale in-memory one: the later check
      reads the new record even when the in-memory tier held another. */
  lemma DurableClearsShadow(st: HashStore, m: Message, hash: Content -> Digest)
    ensures var st' := UpdateHash(st, Some(m), false, hash);
      Saved(st', KeyOf(m)) == Some(hash(ContentOf(m)))
  {
  }
}

=== FILE: text.dfy ===
/** Python `str` helpers the protocol layer relies on (`strip`, `find`,
    slice clamping) and the UTF-16 view of a string that the chat transport
    uses for every offset and length (`Utf16CodepointsWrapper`).

    A Python `str` is modelled as a Dafny `string`: a sequence of Unicode
    scalar values, i.e. code points. A UTF-16 code unit is an `int` below
    0x1_0000. */
module Text {
  import opened Wrappers

  /** One UTF-16 code unit. */
  type Unit = x: int | 0 <= x < 0x1_0000

  // ---------------------------------------------------------------------------
  // str.strip()
  // ---------------------------------------------------------------------------

  /** The characters `str.isspace()` accepts, which are the ones `str.strip()`
      with no argument removes. */
  predicate IsSpace(c: char) {
    || ('\t' <= c <= '\r')
    || ('\U{1C}' <= c <= '\U{1F}')
    || c == ' '
    || c == '\U{85}'
    || c == '\U{A0}'
    || c == '\U{1680}'
    || ('\U{2000}' <= c <= '\U{200A}')
    || c == '\U{2028}'
    || c == '\U{2029}'
    || c == '\U{202F}'
    || c == '\U{205F}'
    || c == '\U{3000}'
  }

  predicate AllSpace(s: string) {
    forall k :: 0 <= k < |s| ==> IsSpace(s[k])
  }

  /** A string with no whitespace at either end: what `strip()` returns. */
  predicate IsStripped(s: string) {
    s == [] || (!IsSpace(s[0]) && !IsSpace(s[|s| - 1]))
  }

  /** `s.lstrip()`: the suffix left after dropping leading whitespace. */
  function StripLeft(s: string): (r: string)
    ensures |r| <= |s| && r == s[|s| - |r|..]
    ensures AllSpace(s[..|s| - |r|])
    ensures r == [] || !IsSpace(r[0])
    decreases |s|
  {
    if |s| > 0 && IsSpace(s[0]) then StripLeft(s[1..]) else s
  }

  /** `s.rstrip()`: the prefix left after dropping trailing whitespace. */
  function StripRight(s: string): (r: string)
    ensures |r| <= |s| && r == s[..|r|]
    ensures AllSpace(s[|r|..])
    ensures r == [] || !IsSpace(r[|r| - 1])
    decreases |s|
  {
    if |s| > 0 && IsSpace(s[|s| - 1]) then StripRight(s[..|s| - 1]) else s
  }

  /** `s.strip()`. */
  function Strip(s: string): (r: string)
    ensures IsStripped(r)
  {
    StripRight(StripLeft(s))
  }

  /** What `strip()` keeps is an infix of `s` with only whitespace around
      it; with `IsStripped` this makes it the longest such infix. */
  lemma StripInfix(s: string)
    ensures var r := Strip(s);
      exists i, j :: 0 <= i <= j <= |s| && r == s[i..j] && AllSpace(s[..i]) && AllSpace(s[j..])
  {
    var l := StripLeft(s);
    var r := StripRight(l);
    var i := |s| - |l|;
    SuffixSlices(s, i, |r|);
    assert r == s[i..i + |r|] && AllSpace(s[..i]) && AllSpace(s[i + |r|..]);
  }

  lemma SuffixSlices<T>(s: seq<T>, i: int, n: int)
    requires 0 <= i <= i + n <= |s|
    ensures s[i..][..n] == s[i..i + n]
    ensures s[i..][n..] == s[i + n..]
  {
  }

  lemma StripOfStripped(s: string)
    requires IsStripped(s)
    ensures Strip(s) == s
  {
    StripLeftKeeps(s);
    StripRightKeeps(s);
    assert Strip(s) == StripRight(StripLeft(s));
  }

  lemma StripLeftKeeps(s: string)
    requires s == [] || !IsSpace(s[0])
    ensures StripLeft(s) == s
  {
  }

  lemma StripRightKeeps(s: string)
    requires s == [] || !IsSpace(s[|s| - 1])
    ensures StripRight(s) == s
  {
  }

  /** `strip()` empties exactly the all-whitespace strings. */
  lemma StripBlank(s: string)
    ensures Strip(s) == [] <==> AllSpace(s)
  {
    if Strip(s) == [] {
      StripInfix(s);
      var i, j :| 0 <= i <= j <= |s| && Strip(s) == s[i..j] && AllSpace(s[..i]) && AllSpace(s[j..]);
      forall k | 0 <= k < |s|
        ensures IsSpace(s[k])
      {
        if k < i {
          assert s[k] == s[..i][k];
        } else {
          assert s[k] == s[j..][k - j];
        }
      }
    }
  }

  /** `strip()` is idempotent. */
  lemma StripIdempotent(s: string)
    ensures Strip(Strip(s)) == Strip(s)
  {
    StripOfStripped(Strip(s));
  }

  lemma {:induction false} StripLeftSpacePrefix(w: string, s: string)
    requires AllSpace(w)
    ensures StripLeft(w + s) == StripLeft(s)
    decreases |w|
  {
    if w != [] {
      var ws := w + s;
      assert ws[0] == w[0] && IsSpace(ws[0]);
      assert StripLeft(ws) == StripLeft(ws[1..]);
      assert ws[1..] == w[1..] + s;
      assert AllSpace(w[1..]) by {
        forall k | 0 <= k < |w[1..]|
          ensures IsSpace(w[1..][k])
        {
          assert w[1..][k] == w[k + 1];
        }
      }
      StripLeftSpacePrefix(w[1..], s);
    } else {
      assert w + s == s;
    }
  }

  /** Whitespace in front of a string does not change what `strip()` gives. */
  lemma StripSpacePrefix(w: string, s: string)
    requires AllSpace(w)
    ensures Strip(w + s) == Strip(s)
  {
    StripLeftSpacePrefix(w, s);
  }

  // ---------------------------------------------------------------------------
  // Python index clamping and str.find(c, start)
  // ---------------------------------------------------------------------------

  /** How a Python slice bound `i` lands in a sequence of length `n`:
      a negative bound counts from the end, and bounds are clamped. */
  function PyIndex(i: int, n: nat): (r: nat)
    ensures r <= n
    ensures 0 <= i <= n ==> r == i
    ensures i > n ==> r == n
    ensures i < 0 ==> r == if n + i < 0 then 0 else n + i
  {
    if i < 0 then (if n + i < 0 then 0 else n + i)
    else if i > n then n
    else i
  }

  function FindAt(s: string, c: char, i: nat): (r: int)
    requires i <= |s|
    ensures r == -1 || (i <= r < |s| && s[r] == c)
    decreases |s| - i
  {
    if i == |s| then -1
    else if s[i] == c then i
    else FindAt(s, c, i + 1)
  }

  /** No `c` lies between the start and what the search returns. */
  lemma {:induction false} FindAtFirst(s: string, c: char, i: nat)
    requires i <= |s|
    ensures var r := FindAt(s, c, i);
      forall k :: i <= k < (if r == -1 then |s| else r) ==> s[k] != c
    decreases |s| - i
  {
    if i < |s| && s[i] != c {
      FindAtFirst(s, c, i + 1);
    }
  }

  /** Conversely, the first `c` at or after the start is what the search
      returns. */
  lemma {:induction false} FindAtIs(s: string, c: char, i: nat, p: int)
    requires i <= |s|
    requires p == -1 || (i <= p < |s| && s[p] == c)
    requires forall k :: i <= k < (if p == -1 then |s| else p) ==> s[k] != c
    ensures FindAt(s, c, i) == p
    decreases |s| - i
  {
    if i < |s| && s[i] != c {
      FindAtIs(s, c, i + 1, p);
    }
  }

  /** `s.find(c, start)`: the first index at or after `start` (a Python
      bound) holding `c`, or -1. Indices here are code points. */
  function FindFrom(s: string, c: char, start: int): (r: int)
    ensures r == -1 || (PyIndex(start, |s|) <= r < |s| && s[r] == c)
  {
    FindAt(s, c, PyIndex(start, |s|))
  }

  // ---------------------------------------------------------------------------
  // UTF-16
  // ---------------------------------------------------------------------------

  /** A character outside the Basic Multilingual Plane: two UTF-16 units. */
  predicate IsAstral(c: char) {
    c as int >= 0x1_0000
  }

  /** Every character of `s` is a single UTF-16 unit. */
  predicate IsBmp(s: string) {
    forall i :: 0 <= i < |s| ==> !IsAstral(s[i])
  }

  /** The UTF-16 encoding of one character (a surrogate pair above the BMP). */
  function CharUnits(c: char): (u: seq<Unit>)
    ensures |u| == if IsAstral(c) then 2 else 1
  {
    var cp := c as int;
    if cp < 0x1_0000 then [cp]
    else [0xD800 + (cp - 0x1_0000) / 0x400, 0xDC00 + (cp - 0x1_0000) % 0x400]
  }

  /** `s.encode('utf-16-le')`, seen as code units. */
  function Units(s: string): seq<Unit> {
    if s == [] then [] else CharUnits(s[0]) + Units(s[1..])
  }

  /** Number of characters of `s` outside the BMP. */
  function AstralCount(s: string): nat {
    if s == [] then 0 else (if IsAstral(s[0]) then 1 else 0) + AstralCount(s[1..])
  }

  /** `len(Utf16CodepointsWrapper(s))`: the byte length of the UTF-16-LE
      encoding halved. */
  function Utf16Len(s: string): (n: nat)
    ensures n >= |s|
    ensures IsBmp(s) ==> n == |s|
  {
    Utf16LenCount(s);
    AstralCountBmp(s);
    |Units(s)|
  }

  lemma {:induction false} AstralCountBmp(s: string)
    ensures IsBmp(s) <==> AstralCount(s) == 0
  {
    if s != [] {
      AstralCountBmp(s[1..]);
      if IsBmp(s[1..]) && !IsAstral(s[0]) {
        assert forall i :: 0 < i < |s| ==> s[i] == s[1..][i - 1];
      }
    }
  }

  /** Each character counts one code unit, and one more when it lies
      outside the BMP. */
  lemma {:induction false} Utf16LenCount(s: string)
    ensures |Units(s)| == |s| + AstralCount(s)
  {
    if s != [] {
      Utf16LenCount(s[1..]);
    }
  }

  lemma {:induction false} UnitsAppend(a: string, b: string)
    ensures Units(a + b) == Units(a) + Units(b)
  {
    if a != [] {
      var ab := a + b;
      assert ab != [] && ab[0] == a[0];
      assert ab[1..] == a[1..] + b;
      assert Units(ab) == CharUnits(a[0]) + Units(a[1..] + b);
      UnitsAppend(a[1..], b);
      assert Units(a) == CharUnits(a[0]) + Units(a[1..]);
    } else {
      assert a + b == b;
    }
  }

  /** On BMP text the UTF-16 view is the code points themselves. */
  lemma {:induction false} BmpUnits(s: string)
    requires IsBmp(s)
    ensures |Units(s)| == |s|
    ensures forall i :: 0 <= i < |s| ==> Units(s)[i] == s[i] as int
  {
    if s != [] {
      BmpUnits(s[1..]);
    }
  }

  /** `bytes.decode('utf-16-le')` on whole code units: `None` where Python
      raises `UnicodeDecodeError` on an unpaired surrogate. */
  function Decode(u: seq<Unit>): Option<string> {
    if u == [] then Some([])
    else if 0xD800 <= u[0] < 0xDC00 then
      if |u| >= 2 && 0xDC00 <= u[1] < 0xE000 then
        var rest :- Decode(u[2..]);
        Some([(0x1_0000 + (u[0] as int - 0xD800) * 0x400 + (u[1] as int - 0xDC00)) as char] + rest)
      else None
    else if 0xDC00 <= u[0] < 0xE000 then None
    else
      var rest :- Decode(u[1..]);
      Some([u[0] as char] + rest)
  }

  /** Decoding undoes encoding. */
  lemma {:induction false} DecodeUnits(s: string)
    ensures Decode(Units(s)) == Some(s)
  {
    if s != [] {
      var c := s[0];
      var u := Units(s);
      assert u == CharUnits(c) + Units(s[1..]);
      DecodeUnits(s[1..]);
      if IsAstral(c) {
        var v := c as int - 0x1_0000;
        assert u[0] == 0xD800 + v / 0x400 && u[1] == 0xDC00 + v % 0x400;
        assert u[2..] == Units(s[1..]);
        assert 0x1_0000 + (u[0] as int - 0xD800) * 0x400 + (u[1] as int - 0xDC00) == c as int;
        assert 0xD800 <= u[0] < 0xDC00 && 0xDC00 <= u[1] < 0xE000;
        assert Decode(u) == Some([c] + s[1..]);
        assert s == [c] + s[1..];
      } else {
        assert u[0] == c as int;
        assert !(0xD800 <= c as int < 0xE000);
        assert u[1..] == Units(s[1..]);
        assert Decode(u) == Some([u[0] as char] + s[1..]);
        assert s == [c] + s[1..];
      }
    }
  }

  /** Python's `x if x else None` on a slice bound, as the wrapper's
      `__getitem__` writes it: a bound of 0 is treated as an absent one. */
  function ZeroAsNone(b: Option<int>): (r: Option<int>)
    ensures r.Some? ==> r.value != 0
    ensures b.Some? && b.value != 0 ==> r == b
    ensures b.None? || b == Some(0) ==> r.None?
  {
    if b.Some? && b.value == 0 then None else b
  }

  /** `Utf16CodepointsWrapper(s)[start:stop]`: the slice is taken on the
      UTF-16 units and decoded again, so a bound inside a surrogate pair
      raises (`None`). */
  function Utf16Slice(s: string, start: Option<int>, stop: Option<int>): (r: Option<string>)
    ensures IsBmp(s) ==> r.Some?
  {
    var u := Units(s);
    var lo := match ZeroAsNone(start) case None => 0 case Some(i) => PyIndex(i, |u|);
    var hi := match ZeroAsNone(stop) case None => |u| case Some(i) => PyIndex(i, |u|);
    var r := Decode(if lo <= hi then u[lo..hi] else []);
    assert IsBmp(s) ==> r.Some? by {
      if IsBmp(s) {
        BmpUnits(s);
        var lo' := if lo <= hi then lo else 0;
        var hi' := if lo <= hi then hi else 0;
        assert (if lo <= hi then u[lo..hi] else []) == Units(s[lo'..hi']) by {
          BmpUnits(s[lo'..hi']);
        }
        DecodeUnits(s[lo'..hi']);
      }
    }
    r
  }

  /** On BMP text, slicing the UTF-16 view is slicing the code points. */
  lemma BmpSlice(s: string, a: nat, b: nat)
    requires IsBmp(s) && a <= b <= |s| && b > 0
    ensures Utf16Slice(s, Some(a), Some(b)) == Some(s[a..b])
  {
    BmpUnits(s);
    BmpUnits(s[a..b]);
    assert Units(s)[a..b] == Units(s[a..b]);
    DecodeUnits(s[a..b]);
  }

  /** The slice-stop quirk: a stop of 0 reads as "to the end". */
  lemma SliceStopZero(s: string, start: Option<int>)
    ensures Utf16Slice(s, start, Some(0)) == Utf16Slice(s, start, None)
  {
  }

  /** Slicing the units of `p + q` from `Utf16Len(p)` to the end gives `q`
      back, whatever characters either part holds. */
  lemma SliceAfterPrefix(p: string, q: string)
    requires Utf16Len(p) > 0
    ensures Utf16Slice(p + q, Some(Utf16Len(p)), None) == Some(q)
  {
    UnitsAppend(p, q);
    assert Units(p + q)[|Units(p)|..|Units(p + q)|] == Units(q);
    DecodeUnits(q);
  }

  /** Slicing the units of `p + q` from the start to `Utf16Len(p)` gives `p`
      back. */
  lemma SliceBeforeSuffix(p: string, q: string)
    requires Utf16Len(p) > 0
    ensures Utf16Slice(p + q, Some(0), Some(Utf16Len(p))) == Some(p)
  {
    UnitsAppend(p, q);
    assert Units(p + q)[0..|Units(p)|] == Units(p);
    DecodeUnits(p);
  }
}

=== FILE: types.dfy ===
/** The chat-transport records the protocol layer reads and writes: a
    formatting entity and a message. Python's `None` for an absent text,
    caption, url or language is the empty string here; every place that
    reads them only tests truthiness, for which the two agree. */
module Types {

  /** The entity types the core looks at; any other type is `Other`, named
      by its transport name (which differs from the four above). */
  datatype EntityKind = Pre | Bold | Code | TextLink | Other(name: string)

  /** A formatting run. `offset` and `length` count UTF-16 code units. */
  datatype Entity = Entity(kind: EntityKind, offset: int, length: int, url: string, language: string)

  /** A chat message as the handlers see it. */
  datatype Message = Message(chatId: int, id: int, text: string, caption: string, entities: seq<Entity>)

  /** `(message.chat.id, message.id)`: the identity every per-message store
      is keyed by. */
  type Key = (int, int)

  function KeyOf(m: Message): Key {
    (m.chatId, m.id)
  }

  /** Where an entity ends, in UTF-16 units. */
  function End(e: Entity): int {
    e.offset + e.length
  }
}

=== FILE: wrappers.dfy ===
/** Failure-compatible wrappers used across the model: `Option` for Python's
    `None`-or-value and `Result` for a computation that may raise. */
module Wrappers {

  datatype Option<+T> = None | Some(value: T) {

    predicate IsFailure() {
      None?
    }

    function PropagateFailure<U>(): Option<U>
      requires None?
    {
      None
    }

    function Extract(): T
      requires Some?
    {
      value
    }
  }

  datatype Result<+R, +E> = Success(value: R) | Failure(error: E) {

    predicate IsFailure() {
      Failure?
    }

    function PropagateFailure<U>(): Result<U, E>
      requires Failure?
    {
      Failure(error)
    }

    function Extract(): R
      requires Success?
    {
      value
    }
  }
}
